=== FILE: README.md ===
# Warehouse core in Dafny

This project models the logic core of Warehouse, a terminal application that samples a large
grocery catalog, aggregates statistics over the sample, and runs a reward-driven dynamic
pricing simulation per product. Its parts are:

- **Catalog ingestion** (`DataLoader`, `data_loader.dfy`):
  - the keyword classifier (first rule in declaration order wins, otherwise "Other");
  - the marker-based field extractor for the free-text catalog blob;
  - construction of a product from one CSV row;
  - reservoir sampling with capacity 10 000;
  - the base-price fallback of the market generator.
- **Catalog statistics** (`CatalogStats`, `catalog_stats.dfy`): the single pass that counts
  categories and aggregates positive prices. Its outputs are:
  - category counts sorted by count, with ties in first-seen order;
  - per-category min/avg/max;
  - the global min/max/mean and the median `prices[len // 2]` of the sorted prices.
- **Pricing engine** (`PricingEngine`, `pricing_engine.dfy`):
  - the cost estimate and the demand curve;
  - the four-part reward;
  - the ten-candidate price search;
  - one simulation step with clamped market drift;
  - the multi-step rollout and its summary.
- **Value types** (`Models`, `models.dfy`): display-name truncation, percentage change,
  direction arrows, the settings defaults and their dictionary round trip.
- **History store** (`Storage`, `storage.dfy`): the record one simulation adds to the history
  and the cap at the 200 most recent entries.
- **Catalog screen state** (`CatalogScreen`, `catalog_screen.dfy`): the category/search filter,
  the page cursor with its next/previous guards, page slicing, and parsing a category-tree label.

Shared helpers:
- `Wrappers`: `Option`, `Result`.
- `Text`: Python string operations — `find`, `in`, `strip`, ASCII `lower`, slicing, `split(sep)[0]`.
- `Numeric`: Python `round(x, d)` as exact decimal round-half-even, `sum`, `min`, `max`, `sorted`.

Modelling choices:
- Prices are `real`.
- Every random value is an explicit input:
  - `randint(0, i)` draws of the reservoir are a `seq<int>`;
  - the five draws of the market generator are a `MarketDraws` record;
  - the four draws of each simulation step are a `StepDraws` record.
  The engine's fixed seed then becomes plain functional determinism: the same draws give
  the same trace (`PricingEngine.RolloutDeterministic`).
- `price_ratio ** elasticity` is the engine's function-valued `power` field.
- `float(...)` and `int(...)` on CSV cells are the function-valued `Parsers` argument.

Two behaviours of the code worth noting:
- A step count of 0 runs the default number of steps, because `steps or default_steps`
  treats 0 as missing. Only a negative count gives an empty run.
- The extractor falls back to the first 80 characters whenever the name capture is empty,
  not only when the `item_name` marker is missing.

## Model

| member | source | states |
|---|---|---|
| Models.DisplayName | warehouse/models.py:26-30 | at most 55 characters; the name itself exactly when it fits, otherwise its first 52 characters followed by "..." |
| Models.PercentChangeSign | warehouse/models.py:76-80 | against a positive old price, the percentage change is positive, negative or zero exactly when the new price is above, below or equal to it |
| Models.ActionPriceChangePct | warehouse/models.py:76-80 | 0 when the old price is 0; for a positive old price, positive exactly on a rise and negative exactly on a fall |
| Models.ResultPriceChangePct | warehouse/models.py:106-110 | 0 when the initial price is 0; for a positive initial price, its sign follows the final price against the initial one |
| Models.Direction | warehouse/models.py:82-88 | the up arrow iff the price rose, the down arrow iff it fell, the flat bar iff unchanged, so exactly one applies |
| Models.DirectionMatchesChange | warehouse/models.py:76-88 | for a positive old price the arrow agrees with the sign of the percentage change |
| Models.ToDict | warehouse/models.py:131-141 | the dictionary has exactly the eight settings fields as keys |
| Models.FromDict | warehouse/models.py:143-145 | succeeds iff every settings field present holds a value of that field's JSON kind; then each field is the value stored under its own name (an integer accepted for a float field), or its default when the key is missing |
| Models.ReadFromUnique | warehouse/models.py:143-145 | a dictionary determines at most one settings value, so the field-by-field reading fixes the result |
| Models.SettingsRoundTrip | warehouse/models.py:131-145 | reading back the dictionary of any settings gives the same settings |
| Models.FromDictIgnoresUnknownKeys | warehouse/models.py:143-145 | adding keys that are not settings fields never changes the result |
| Models.FromEmptyDictIsDefault | warehouse/models.py:117-129 | an empty dictionary yields the defaults 0.40, 0.25, 0.20, 0.15, 30, 0.15, 500, "warehouse_dark" |
| DataLoader.HasKeyword | warehouse/data_loader.py:40-42 | true iff some keyword of the rule occurs in the name |
| DataLoader.ClassifyFrom | warehouse/data_loader.py:38-43 | scanning from a rule with no earlier match: a rule label exactly when some rule matches, namely the label of the first matching rule, else "Other" |
| DataLoader.Classify | warehouse/data_loader.py:25-43 | always one of the ten labels; "Other" iff no rule has a keyword in the name; otherwise the label of the first matching rule in declaration order |
| DataLoader.ClassifyChaiTea | warehouse/data_loader.py:25-43 | "organic chai tea bags" also matches the health rule but is classified "Coffee & Tea", the earlier rule |
| DataLoader.ClassifyEmpty | warehouse/data_loader.py:38-43 | an empty name is classified "Other" |
| DataLoader.MarkerIndex | warehouse/data_loader.py:52-57 | -1 iff the marker does not occur in the lower-cased blob, otherwise the first position where it occurs |
| DataLoader.CaptureStart | warehouse/data_loader.py:60 | just after the first ':' at or after the marker, or 0 when no ':' follows it |
| DataLoader.NameEnd | warehouse/data_loader.py:61 | the bullet marker if it lies after the start, else the description marker if that does, else the end of the blob |
| DataLoader.Capture | warehouse/data_loader.py:62 | the span between start and end from its first non-white-space character to just past its last one, cut to the limit; it never starts with white space and is empty iff the span is all white space |
| Text.StripSpan | warehouse/data_loader.py:62 | stripping a slice keeps exactly the characters from the slice's first non-white-space character to just past its last one |
| DataLoader.NameCapture | warehouse/data_loader.py:59-62 | empty without the item_name marker; otherwise the trimmed span from just past the first ':' after the marker up to the name end, cut to 120 characters |
| DataLoader.BulletsCapture | warehouse/data_loader.py:64-67 | empty without the bullet_point marker; otherwise the trimmed span from just past its ':' up to the description marker when that lies after it, else to the end, cut to 200 characters |
| DataLoader.DescCapture | warehouse/data_loader.py:69-71 | empty without the product_description marker; otherwise the trimmed span from just past its ':' to the end of the blob, cut to 300 characters |
| DataLoader.FallbackName | warehouse/data_loader.py:74 | the trimmed first 80 characters with every newline turned into a space, so no newline remains; empty iff those characters are all white space |
| DataLoader.FastParseCatalog | warehouse/data_loader.py:46-76 | an empty blob gives three empty fields; bullets and description are their captures, so a missing marker leaves the field empty; the name is the name capture when that is non-empty and the fallback otherwise, and is empty iff both are |
| DataLoader.RowPrice | warehouse/data_loader.py:135-138 | the parsed price, or 0.0 when the column is missing or does not parse |
| DataLoader.BuildProduct | warehouse/data_loader.py:130-150 | fails iff a present sample_id does not parse as an integer; otherwise the id is the parsed sample_id or the row index when it is missing, the category is classified from the parsed name (an empty name is "Other" and shown as "Product i"), and price, unit, value, image link, bullets and description come from the row |
| DataLoader.ReservoirStep | warehouse/data_loader.py:152-158 | appends while below capacity; past capacity, the row overwrites slot j when its draw j is below capacity and otherwise changes nothing |
| DataLoader.LastWriter | warehouse/data_loader.py:152-158 | the row whose product sits in a slot is the slot's own row or a later row that drew that slot, and no later row drew it |
| DataLoader.LastWriterBelowCapacity | warehouse/data_loader.py:152-153 | below capacity every slot holds its own row |
| DataLoader.IngestRows | warehouse/data_loader.py:124-158 | succeeds iff every row builds, else reports the first failing row; the sample has min(n, 10000) products and each slot holds the product of its last writer |
| DataLoader.SmallSourceKeptInOrder | warehouse/data_loader.py:152-153 | a source of at most 10000 rows is kept whole and in order |
| DataLoader.BasePrice | warehouse/data_loader.py:211 | always positive, and the product's price whenever that is positive |
| DataLoader.GenerateMarketState | warehouse/data_loader.py:208-220 | the market's current price is the positive base price, the id is the product's, the stock is the drawn stock |
| DataLoader.GeneratedMarketInRange | warehouse/data_loader.py:212-220 | with draws in their documented ranges the stock, engagement, seasonality and elasticity stay in those ranges after rounding, and the competitor price is non-negative |
| DataLoader.CompetitorNotNegative | warehouse/data_loader.py:211-214 | a spread of at least -20% around the positive base price gives a competitor price of at least zero after rounding |
| DataLoader.LoadCatalog | warehouse/data_loader.py:124-163 | fails iff some row's sample_id does not parse; on success total_in_csv is the row count and total_products is min(rows, 10000), the size of the sample |
| DataLoader.LoadCatalogRows | warehouse/data_loader.py:124-158 | a failed load names a row whose sample_id does not parse; a source of at most 10000 rows gives each row's product, in row order |
| CatalogStats.PricedSplit | warehouse/data_loader.py:189-190 | priced and non-positive products together are all products |
| CatalogStats.PassCounts | warehouse/data_loader.py:172-173 | after the pass each category present is counted exactly as often as it occurs, and absent categories have no entry |
| CatalogStats.PassOrder | warehouse/data_loader.py:173 | the pass's key order lists each category once, in order of first occurrence |
| CatalogStats.PassPriced | warehouse/data_loader.py:174-182 | the collected prices are the positive prices in order; a category has price entries iff it has a positive price, with count, sum, min and max of exactly those prices |
| CatalogStats.InsertByCount | warehouse/data_loader.py:184 | inserting into a list sorted by descending count keeps it sorted and adds exactly the entry |
| CatalogStats.SortByCount | warehouse/data_loader.py:184 | a permutation of the entries with non-increasing counts |
| CatalogStats.SortStable | warehouse/data_loader.py:184 | for every count, the entries with that count keep their original relative order |
| CatalogStats.CountsAddUp | warehouse/data_loader.py:172-173 | the counted entries sum to the number of products |
| CatalogStats.Summarize | warehouse/data_loader.py:191-196 | zeros for no prices; otherwise min and max are the smallest and largest price, the mean is the sum over the count and lies between them, and the median is a price of rank len // 2: at most len // 2 prices lie below it and more than len // 2 at or below it |
| Numeric.SortedElementHasRank | warehouse/data_loader.py:192-194 | element k of the sorted list has rank k in the unsorted one |
| Numeric.RankUnique | warehouse/data_loader.py:192-194 | two different values never share a rank, so the rank fixes the median |
| CatalogStats.Precompute | warehouse/data_loader.py:160-196 | keeps the sample, total_products is its size, priced plus zero-price counts make the total, counts are in descending order, and the min/avg/max maps share their keys |
| CatalogStats.CategoryCountsExact | warehouse/data_loader.py:165-184 | the sorted counts list every present category once, each with its exact count |
| CatalogStats.CategoryCountsTotal | warehouse/data_loader.py:162-184 | the category counts sum to total_products |
| CatalogStats.TiesKeepFirstSeenOrder | warehouse/data_loader.py:173-184 | categories with equal counts appear in the order they were first seen |
| CatalogStats.PriceSummaryOfPositivePrices | warehouse/data_loader.py:170-196 | priced_products counts the positive prices, the global summary is over exactly those prices, and a non-empty summary has a positive minimum |
| CatalogStats.CategoryPricesAgree | warehouse/data_loader.py:174-187 | a category has an average iff it has a positive price; its min and max are the smallest and largest of those prices, and its average is their sum over their count, which lies between them |
| PricingEngine.EstimateCost | warehouse/pricing_engine.py:30-32 | for a non-negative price the cost lies between 0 and the price; for a positive price it is positive and strictly below it |
| PricingEngine.Demand | warehouse/pricing_engine.py:34-46 | never negative, and 0 when either price is not positive |
| PricingEngine.DemandAtReferencePrice | warehouse/pricing_engine.py:41-46 | at the reference price the demand is 100 scaled by seasonality and engagement |
| PricingEngine.CompetitivePenalty | warehouse/pricing_engine.py:68-70 | 0 when the price does not exceed the competitor's, positive when it does |
| PricingEngine.CompetitivePenaltyIncreasing | warehouse/pricing_engine.py:68-70 | above the competitor's price, a higher price is penalised strictly more |
| PricingEngine.StabilityPenalty | warehouse/pricing_engine.py:72-74 | 0 when the price does not move, positive when it does |
| PricingEngine.StabilityPenaltyIncreasing | warehouse/pricing_engine.py:72-74 | a larger move from the old price is penalised strictly more |
| PricingEngine.InventoryPenalty | warehouse/pricing_engine.py:76-83 | non-negative, 0 exactly for stock between 20 and 400, at most 1 for stock in [0, 20) |
| PricingEngine.ComputeReward | warehouse/pricing_engine.py:48-90 | the three penalty parts are exactly the competitive, stability and inventory penalties of the new price, so they are non-negative and vanish exactly at the competitor bound, no move, and healthy stock; selling at or below cost earns no profit; the total is the weighted combination |
| PricingEngine.RewardPenaltiesIncreasing | warehouse/pricing_engine.py:68-74 | in the reward itself, a price further above the competitor's gets a strictly larger competitive part, and a larger move from the old price a strictly larger stability part |
| PricingEngine.RewardAtMostProfit | warehouse/pricing_engine.py:85-90 | with non-negative weights the total never exceeds the weighted profit; with positive penalty weights it equals it exactly when all three penalties vanish |
| PricingEngine.RewardBound | warehouse/pricing_engine.py:85-90 | for any weighted sum of non-negative penalties, each zero exactly under its condition, the total is at most the weighted profit and reaches it exactly when all conditions hold |
| PricingEngine.RelativeProfit | warehouse/pricing_engine.py:56-66 | selling at or below the estimated cost yields no positive profit |
| PricingEngine.Candidates | warehouse/pricing_engine.py:97-110 | ten candidates, the first the current price and the eighth the competitor's |
| PricingEngine.Prepare | warehouse/pricing_engine.py:115 | at least one cent and already a whole number of cents; a candidate below one cent becomes exactly 0.01, any other is rounded to cents |
| PricingEngine.ArgMaxFrom | warehouse/pricing_engine.py:114-119 | the scan continued from a prefix ends on a maximal score that is strictly above every earlier score |
| PricingEngine.BestIndex | warehouse/pricing_engine.py:112-119 | the index of the first maximum: no score is higher and every earlier one is strictly lower |
| PricingEngine.SuggestPrice | warehouse/pricing_engine.py:92-121 | one of the prepared candidates, at least one cent, and on the cent grid |
| PricingEngine.SuggestPriceIsFirstBest | warehouse/pricing_engine.py:112-121 | no prepared candidate scores higher than the suggestion, and the suggestion is the earliest candidate every earlier one scores strictly below |
| PricingEngine.SimulateStep | warehouse/pricing_engine.py:123-166 | the action prices at the suggestion and records the old price rounded to cents, the product's id and 60-character name, and the reward of `compute_reward` for the suggestion with its total and four parts rounded to four places; the next market is `NextMarket` at the suggestion, so it lies within the clamps |
| PricingEngine.NextMarket | warehouse/pricing_engine.py:147-164 | stock is the old stock plus the change, or 0 when that is negative; engagement and seasonality are the drifted value rounded to cents inside [0.05, 1] and [0.3, 2.5] and the bound crossed outside; the competitor price is the drifted price rounded to cents, or 0.01 below one cent; the elasticity is kept and the new price becomes current |
| PricingEngine.StepStockMovesAtMostThirty | warehouse/pricing_engine.py:147-148 | with draws in the generator's ranges a step moves the stock by at most 30 units |
| PricingEngine.EngineStep | warehouse/pricing_engine.py:123-166 | the engine's step is `SimulateStep` for the product and meets the step contract every rollout relies on |
| PricingEngine.StepRoundingFacts | warehouse/pricing_engine.py:150-161 | rounding to cents keeps the clamped drift values inside their clamps |
| PricingEngine.Rollout | warehouse/pricing_engine.py:187-194 | for any step meeting the step contract: n actions numbered 1..n, each priced at whole cents of at least 0.01; the current price is the last new price and the market carries it; the market keeps its elasticity and stays within the clamps |
| PricingEngine.RolloutExtends | warehouse/pricing_engine.py:187-194 | one more iteration keeps the earlier actions and appends the step taken from the market and price the shorter run left, with the next draw |
| PricingEngine.RolloutStep | warehouse/pricing_engine.py:187-194 | action i of any run is the step taken from the state the first i iterations left, with draw i, numbered i + 1 |
| PricingEngine.RolloutChained | warehouse/pricing_engine.py:182-193 | every run is chained: the first action starts at the starting price rounded to cents and each later one at the previous action's new price |
| PricingEngine.ChainedAt | warehouse/pricing_engine.py:189-193 | in a chained run the first action starts at the start price and every later one at the new price before it |
| PricingEngine.ChainedFrom | warehouse/pricing_engine.py:189-193 | conversely, actions whose old prices follow that pattern form a chained run |
| PricingEngine.RolloutPrefix | warehouse/pricing_engine.py:187-194 | a shorter run is the beginning of a longer run on the same draws |
| PricingEngine.RolloutDeterministic | warehouse/pricing_engine.py:147-153 | a run depends only on the draws it consumes, so the same draws give the same trace |
| PricingEngine.EffectiveSteps | warehouse/pricing_engine.py:180 | a missing or zero step count falls back to the default, any other count is kept |
| PricingEngine.Iterations | warehouse/pricing_engine.py:187 | `range(n)` runs n times, and not at all for negative n |
| PricingEngine.PriceHistory | warehouse/pricing_engine.py:185-194 | the initial price followed by every step's new price |
| PricingEngine.Rewards | warehouse/pricing_engine.py:196 | the step rewards in step order |
| PricingEngine.Summarise | warehouse/pricing_engine.py:196-210 | the result block of a run: first and last price rounded to cents, total and mean reward rounded to four places, and the lowest and highest price of the history rounded to cents; min <= initial, final <= max, and zero rewards for an empty run |
| PricingEngine.Simulate | warehouse/pricing_engine.py:168-210 | reports the given step count and the rollout's actions for that many iterations, with the result block of that run and min <= initial, final <= max |
| PricingEngine.SimulateRun | warehouse/pricing_engine.py:187-210 | one action per iteration numbered from 1 and chained from the reported initial price; an empty run reports zero rewards and the initial price as final, otherwise the final price is the last step's new price |
| PricingEngine.RunSimulation | warehouse/pricing_engine.py:168-210 | reports the effective step count and the engine's rollout for that many iterations, summarised: rounded first and last price, total and mean reward, lowest and highest price of the history, with min <= initial, final <= max |
| PricingEngine.RunSimulationRun | warehouse/pricing_engine.py:187-210 | one action per iteration numbered from 1 and chained from the initial price; zeros and an unchanged price for an empty run, the last step's price as final price otherwise |
| PricingEngine.RunSimulationRewards | warehouse/pricing_engine.py:187-196 | each action of the run records the reward `compute_reward` gives the suggestion from the market and price the earlier steps left, rounded to four places, and these are the rewards the total and mean are taken over |
| Storage.MakeActionRecord | warehouse/storage.py:59-64 | copies the step number |
| Storage.MakeRecord | warehouse/storage.py:49-67 | copies id, name and step count, with one action entry per action in the same order |
| Storage.RecordKeepsRoundedFigures | warehouse/storage.py:49-67 | for a result whose figures are already rounded, the record keeps its initial and final price, its total reward and every action's prices exactly |
| Storage.AppendCapped | warehouse/storage.py:68-72 | at most 200 entries with the new one last; a history under 200 is kept whole, a full one ends at 200 |
| Storage.AppendCappedKeepsNewest | warehouse/storage.py:68-72 | the result is the newest part of the old history followed by the new entry, so only the oldest entries are dropped |
| Storage.SaveSimulation | warehouse/storage.py:49-72 | at most 200 records, the new record last, and a short history kept whole before it |
| Storage.SaveSimulationAtCap | warehouse/storage.py:70-72 | saving into a full history keeps exactly its 199 newest entries before the new record |
| CatalogScreen.PageCount | warehouse/screens/catalog.py:88 | at least one page, enough pages for every item, and no empty trailing page |
| CatalogScreen.FilterCategory | warehouse/screens/catalog.py:65-66 | keeps exactly the products of the selected category, or all when no category is active |
| CatalogScreen.FilterSearch | warehouse/screens/catalog.py:67-69 | keeps exactly the products whose lower-cased name contains the lower-cased search, or all for an empty search |
| CatalogScreen.ApplyFilter | warehouse/screens/catalog.py:62-72 | resets to page 0 and keeps the category; the filtered list is the one-pass selection of the products passing both filters, in their original order, and everything when neither filter is active |
| CatalogScreen.ApplyFilterIsSelected | warehouse/screens/catalog.py:62-70 | the two-stage filter equals a single order-preserving pass with both conditions |
| CatalogScreen.SelectedAppend | warehouse/screens/catalog.py:62-70 | filtering a concatenation filters each part, so the original order is kept |
| CatalogScreen.SelectedIdempotent | warehouse/screens/catalog.py:62-70 | filtering an already filtered list again changes nothing |
| CatalogScreen.PageItems | warehouse/screens/catalog.py:79-81 | at most 200 products, the consecutive products from the page start; full pages are full, a partial last page holds exactly the remaining products, and pages past the end are empty |
| CatalogScreen.ValidPageNonEmpty | warehouse/screens/catalog.py:79-88 | every valid page shows at least one product unless nothing matched |
| CatalogScreen.NextPage | warehouse/screens/catalog.py:95-99 | advances exactly when a later page exists, and keeps the cursor on a valid page |
| CatalogScreen.PrevPage | warehouse/screens/catalog.py:101-104 | goes back exactly when not on the first page, and keeps the cursor on a valid page |
| CatalogScreen.NextThenPrev | warehouse/screens/catalog.py:95-104 | stepping forward then back from any valid page but the last returns to the same state |
| CatalogScreen.ParseLabel | warehouse/screens/catalog.py:110-117 | the root label clears the category; any other label selects its prefix before the first " (", ending exactly where that occurs, or the whole label when there is none |
| CatalogScreen.ParseTreeLabel | warehouse/screens/catalog.py:110-117 | a leaf label built from a category and its count selects exactly that category |
| CatalogScreen.SelectNode | warehouse/screens/catalog.py:110-121 | sets the parsed category, resets to page 0, and the filtered list is the order-preserving selection of the products by that category and the search |

## Left out

- Cache files, the pickle format, the md5 cache key, directory creation and CSV discovery are file I/O and are not modelled.
- CSV tokenising is not modelled: a row is a map from column name to cell text. A short row that `csv.DictReader` fills with `None` is not distinguished from a missing cell.
- `float(...)` and `int(...)` on cells are the `Parsers` argument, not a model of Python's number syntax.
- `std_price` is not computed, because it needs a real square root.
- Timestamps set from the clock in `MarketState` and `PricingAction` are not modelled.
- Python's Mersenne Twister is not modelled; every draw is an input. The uniformity of reservoir sampling is a probabilistic claim and is not stated.
- DataLoader.IngestRows: requires enough in-range draws for the rows past capacity (`DrawsCover`), as `randint(0, i)` provides.
- Text.Lower: lower-cases ASCII letters only and so never changes a string's length. Names with non-ASCII capitals may classify and match searches differently, and where Python's `lower()` changes the length (as for 'İ') the marker positions found in `raw.lower()` and then used to slice `raw` shift, which the model cannot show.
- Numeric.Round: rounds the exact decimal value half to even; the binary representation of floats, and its effect on halfway cases, is not modelled.
- PricingEngine.Demand: `price_ratio ** elasticity` is the engine's `power` function, so only the non-negativity and the zero cases of demand are stated, not its numeric value.
- PricingEngine.SuggestPrice: the `-inf` start of the search and NaN rewards are not modelled; the first candidate always wins against the start value.
- PricingEngine.RunSimulation: requires one `StepDraws` per iteration, as the engine's generator supplies.
- Models.FromDict: a known key holding a value of the wrong JSON kind gives None, while Python stores such a value unchecked and fails later.
- Storage.SaveSimulation: the history is the list of records the file held; reading, writing and the fallback to an empty list for an unreadable file are not modelled.
- CatalogScreen.PageItems: requires a non-negative page, the invariant the cursor keeps; Python's negative slicing is not modelled.
- CatalogScreen.ParseTreeLabel: the count is the label's count text as given; its thousands-separator formatting is not modelled.
- All Textual UI is presentation and is not modelled: screens, widgets, key bindings, table rendering and the status line.

=== FILE: catalog_screen.dfy ===
/**
 * The browsing state of the catalog screen: the filtered product list, the page cursor
 * over it, and the category selected in the category tree. Widgets and rendering are
 * left out; what remains is the filter, the page arithmetic and the cursor moves.
 */
module CatalogScreen {
  import opened Wrappers
  import opened Models
  import Text

  /** Products shown per page. */
  const PageSize: nat := 200

  /** The label of the category tree's root. */
  const AllProductsLabel := "All Products"

  /** The separator between a category and its count in a tree label. */
  const CountSeparator := " ("

  /** `max(1, (total + PAGE_SIZE - 1) // PAGE_SIZE)`: enough pages for every item, and at least one. */
  function PageCount(total: nat): (pages: nat)
    ensures pages >= 1
    ensures total <= pages * PageSize
    ensures total > 0 ==> (pages - 1) * PageSize < total
    ensures total == 0 ==> pages == 1
  {
    var q := (total + PageSize - 1) / PageSize;
    if q >= 1 then q else 1
  }

  /** The screen's state: the page cursor, the filtered products and the selected category. */
  datatype State = State(page: int, filtered: seq<Product>, category: Option<string>)

  /** The cursor points at an existing page. */
  predicate ValidPage(st: State) {
    0 <= st.page < PageCount(|st.filtered|)
  }

  /** The category filter is active only for a non-empty category, as a Python truth test. */
  predicate CategoryActive(category: Option<string>) {
    category.Some? && category.value != ""
  }

  /** `p.category == self._category` when the filter is active. */
  predicate InCategory(p: Product, category: Option<string>) {
    !CategoryActive(category) || p.category == category.value
  }

  /** `search.lower() in p.name.lower()` when the search is non-empty. */
  predicate MatchesSearch(p: Product, search: string) {
    search == [] || Text.Contains(Text.Lower(p.name), Text.Lower(search))
  }

  /** The product passes both the category filter and the search filter. */
  ghost predicate Matches(p: Product, category: Option<string>, search: string) {
    InCategory(p, category) && MatchesSearch(p, search)
  }

  /** The category comprehension of `_apply_filter`. */
  function FilterCategory(ps: seq<Product>, category: Option<string>): (f: seq<Product>)
    ensures |f| <= |ps|
    ensures forall p :: p in f <==> p in ps && InCategory(p, category)
  {
    if |ps| == 0 then []
    else
      var rest := FilterCategory(ps[..|ps| - 1], category);
      var last := ps[|ps| - 1];
      assert ps == ps[..|ps| - 1] + [last];
      if InCategory(last, category) then rest + [last] else rest
  }

  /** The search comprehension of `_apply_filter`. */
  function FilterSearch(ps: seq<Product>, search: string): (f: seq<Product>)
    ensures |f| <= |ps|
    ensures forall p :: p in f <==> p in ps && MatchesSearch(p, search)
  {
    if |ps| == 0 then []
    else
      var rest := FilterSearch(ps[..|ps| - 1], search);
      var last := ps[|ps| - 1];
      assert ps == ps[..|ps| - 1] + [last];
      if MatchesSearch(last, search) then rest + [last] else rest
  }

  /** A reference definition of the filtered list: one pass keeping products that satisfy both filters. */
  ghost function Selected(ps: seq<Product>, category: Option<string>, search: string): seq<Product>
  {
    if |ps| == 0 then []
    else
      var rest := Selected(ps[..|ps| - 1], category, search);
      if Matches(ps[|ps| - 1], category, search) then rest + [ps[|ps| - 1]] else rest
  }

  /**
   * `_apply_filter`: filter by category, then by search text, and return to the first page.
   */
  function ApplyFilter(st: State, products: seq<Product>, search: string): (r: State)
    ensures r.page == 0 && ValidPage(r)
    ensures r.category == st.category
    ensures forall p :: p in r.filtered <==> p in products && Matches(p, st.category, search)
    ensures !CategoryActive(st.category) && search == [] ==> r.filtered == products
    ensures r.filtered == Selected(products, st.category, search)
  {
    var f := FilterSearch(FilterCategory(products, st.category), search);
    ApplyFilterIsSelected(products, st.category, search);
    if !CategoryActive(st.category) && search == [] then
      NoFilterKeepsAll(products, st.category, search);
      State(0, f, st.category)
    else
      State(0, f, st.category)
  }

  lemma {:induction false} NoFilterKeepsAll(ps: seq<Product>, category: Option<string>, search: string)
    requires !CategoryActive(category) && search == []
    ensures FilterSearch(FilterCategory(ps, category), search) == ps
  {
    if |ps| > 0 {
      NoFilterKeepsAll(ps[..|ps| - 1], category, search);
      FilterSearchAppend(FilterCategory(ps[..|ps| - 1], category), ps[|ps| - 1], search);
      assert ps == ps[..|ps| - 1] + [ps[|ps| - 1]];
    }
  }

  lemma FilterSearchAppend(ps: seq<Product>, x: Product, search: string)
    ensures FilterSearch(ps + [x], search) ==
      FilterSearch(ps, search) + (if MatchesSearch(x, search) then [x] else [])
  {
    assert (ps + [x])[..|ps|] == ps;
  }

  /**
   * Filtering by category and then by search keeps exactly the products the one-pass
   * reference keeps, in the same order.
   */
  lemma {:induction false} ApplyFilterIsSelected(ps: seq<Product>, category: Option<string>, search: string)
    ensures FilterSearch(FilterCategory(ps, category), search) == Selected(ps, category, search)
  {
    if |ps| > 0 {
      var init := ps[..|ps| - 1];
      var last := ps[|ps| - 1];
      ApplyFilterIsSelected(init, category, search);
      FilterSearchAppend(FilterCategory(init, category), last, search);
    }
  }

  /** The reference keeps order: selecting from a concatenation selects from each part. */
  lemma {:induction false} SelectedAppend(a: seq<Product>, b: seq<Product>, category: Option<string>, search: string)
    ensures Selected(a + b, category, search) == Selected(a, category, search) + Selected(b, category, search)
    decreases |b|
  {
    if |b| == 0 {
      assert a + b == a;
    } else {
      var b' := b[..|b| - 1];
      SelectedAppend(a, b', category, search);
      assert (a + b)[..|a + b| - 1] == a + b';
      assert (a + b)[|a + b| - 1] == b[|b| - 1];
    }
  }

  /** Applying the same filter to an already filtered list changes nothing. */
  lemma {:induction false} SelectedIdempotent(ps: seq<Product>, category: Option<string>, search: string)
    ensures Selected(Selected(ps, category, search), category, search) == Selected(ps, category, search)
  {
    if |ps| > 0 {
      var init := ps[..|ps| - 1];
      var last := ps[|ps| - 1];
      SelectedIdempotent(init, category, search);
      var s := Selected(init, category, search);
      if Matches(last, category, search) {
        SelectedAppend(s, [last], category, search);
        assert [last][..0] == [];
      }
    }
  }

  /** The index of the first product on the cursor's page. */
  function PageStart(st: State): int
  {
    st.page * PageSize
  }

  /**
   * `self._filtered[start:end]` with `start = page * PAGE_SIZE` and `end = start + PAGE_SIZE`;
   * Python's slice clamps both ends to the list.
   */
  function PageItems(st: State): (r: seq<Product>)
    requires st.page >= 0
    ensures |r| <= PageSize
    ensures forall i :: 0 <= i < |r| ==> PageStart(st) + i < |st.filtered| && r[i] == st.filtered[PageStart(st) + i]
    ensures PageStart(st) + PageSize <= |st.filtered| ==> |r| == PageSize
    ensures PageStart(st) >= |st.filtered| ==> r == []
    ensures PageStart(st) < |st.filtered| < PageStart(st) + PageSize ==> |r| == |st.filtered| - PageStart(st)
  {
    var n := |st.filtered|;
    var start := PageStart(st);
    var lo := if start <= n then start else n;
    var hi := if start + PageSize <= n then start + PageSize else n;
    st.filtered[lo..hi]
  }

  /** Every valid page shows something unless nothing matched. */
  lemma ValidPageNonEmpty(st: State)
    requires ValidPage(st) && |st.filtered| > 0
    ensures |PageItems(st)| > 0
  {
    var pages := PageCount(|st.filtered|);
    assert st.page <= pages - 1;
    assert st.page * PageSize <= (pages - 1) * PageSize;
  }

  /** `action_next_page`: advance only when there is a later page. */
  function NextPage(st: State): (r: State)
    ensures ValidPage(st) ==> ValidPage(r)
    ensures r.filtered == st.filtered && r.category == st.category
    ensures st.page < PageCount(|st.filtered|) - 1 ==> r.page == st.page + 1
    ensures st.page >= PageCount(|st.filtered|) - 1 ==> r == st
  {
    if st.page < PageCount(|st.filtered|) - 1 then st.(page := st.page + 1) else st
  }

  /** `action_prev_page`: go back only when not on the first page. */
  function PrevPage(st: State): (r: State)
    ensures ValidPage(st) ==> ValidPage(r)
    ensures r.filtered == st.filtered && r.category == st.category
    ensures st.page > 0 ==> r.page == st.page - 1
    ensures st.page <= 0 ==> r == st
  {
    if st.page > 0 then st.(page := st.page - 1) else st
  }

  /** Stepping forward and back from any page but the last returns to the same page. */
  lemma NextThenPrev(st: State)
    requires ValidPage(st) && st.page < PageCount(|st.filtered|) - 1
    ensures PrevPage(NextPage(st)) == st
  {
  }

  /** A leaf label of the category tree as `_build_tree` writes it: the category, then its count in parentheses. */
  function TreeLabel(category: string, countText: string): string
  {
    category + CountSeparator + countText + ")"
  }

  /**
   * `on_tree_node_selected`: the root clears the filter; any other label selects the text
   * before its first " (", which is the whole label when there is none.
   */
  function ParseLabel(node: string): (r: Option<string>)
    ensures node == AllProductsLabel <==> r.None?
    ensures r.Some? ==> |r.value| <= |node| && node[..|r.value|] == r.value
    ensures r.Some? ==> !Text.IsInfix(CountSeparator, r.value)
    ensures r.Some? && !Text.IsInfix(CountSeparator, node) ==> r.value == node
    ensures r.Some? && Text.IsInfix(CountSeparator, node) ==> Text.InfixAt(CountSeparator, node, |r.value|)
  {
    if node == AllProductsLabel then None else Some(Text.Before(node, CountSeparator))
  }

  /** A leaf label selects exactly the category it was built from. */
  lemma ParseTreeLabel(category: string, countText: string)
    requires !Text.IsInfix(CountSeparator, category)
    ensures ParseLabel(TreeLabel(category, countText)) == Some(category)
  {
    var node := TreeLabel(category, countText);
    var n := |category|;
    assert node[..n] == category;
    assert node[n..n + 2] == CountSeparator;
    assert node[|node| - 1] == ')' && AllProductsLabel[|AllProductsLabel| - 1] == 's';
    forall i | 0 <= i < n ensures !Text.InfixAt(CountSeparator, node, i) {
      if i + 1 < n {
        assert node[i..i + 2] == category[i..i + 2];
        assert !Text.InfixAt(CountSeparator, category, i);
      } else {
        assert node[i..i + 2][1] == node[n] == ' ';
        assert CountSeparator[1] == '(';
      }
    }
    assert Text.InfixAt(CountSeparator, node, n);
    var k := Text.Find(node, CountSeparator, 0);
    assert k == n;
    assert Text.Before(node, CountSeparator) == node[..k];
  }

  /** Selecting a tree node and re-applying the search, as the handler does. */
  function SelectNode(st: State, products: seq<Product>, node: string, search: string): (r: State)
    ensures r.page == 0 && ValidPage(r)
    ensures r.category == ParseLabel(node)
    ensures node == AllProductsLabel && search == [] ==> r.filtered == products
    ensures r.filtered == Selected(products, ParseLabel(node), search)
  {
    ApplyFilter(st.(category := ParseLabel(node)), products, search)
  }
}

=== FILE: catalog_stats.dfy ===
/**
 * The single statistics pass `load_and_cache` runs over the sampled products: category
 * counts in first-seen order then sorted by count, per-category price aggregates over
 * the positive prices, and the overall price summary.
 */
module CatalogStats {
  import opened Models
  import Numeric

  // ---------------------------------------------------------------------------
  // Reference definitions
  // ---------------------------------------------------------------------------

  /** How many of `ps` carry category `c`. */
  function CountIn(ps: seq<Product>, c: string): (n: nat)
    ensures n <= |ps|
  {
    if |ps| == 0 then 0
    else CountIn(ps[..|ps| - 1], c) + (if ps[|ps| - 1].category == c then 1 else 0)
  }

  /** The positive prices of `ps`, in product order. */
  function Priced(ps: seq<Product>): (r: seq<real>)
    ensures |r| <= |ps|
    ensures forall i :: 0 <= i < |r| ==> r[i] > 0.0
  {
    if |ps| == 0 then []
    else
      var init := Priced(ps[..|ps| - 1]);
      if ps[|ps| - 1].price > 0.0 then init + [ps[|ps| - 1].price] else init
  }

  /** The positive prices of the products of category `c`, in product order. */
  function PricedIn(ps: seq<Product>, c: string): (r: seq<real>)
    ensures forall i :: 0 <= i < |r| ==> r[i] > 0.0
  {
    if |ps| == 0 then []
    else
      var init := PricedIn(ps[..|ps| - 1], c);
      var p := ps[|ps| - 1];
      if p.price > 0.0 && p.category == c then init + [p.price] else init
  }

  /** How many of `ps` have no positive price. */
  function CountNonPositive(ps: seq<Product>): nat
  {
    if |ps| == 0 then 0
    else CountNonPositive(ps[..|ps| - 1]) + (if ps[|ps| - 1].price <= 0.0 then 1 else 0)
  }

  /** Every product either has a positive price or is counted as unpriced. */
  lemma {:induction false} PricedSplit(ps: seq<Product>)
    ensures |Priced(ps)| + CountNonPositive(ps) == |ps|
  {
    if |ps| > 0 {
      PricedSplit(ps[..|ps| - 1]);
    }
  }

  /** A prefix never holds more products of a category than the whole sequence. */
  lemma {:induction false} CountPrefix(ps: seq<Product>, i: nat, c: string)
    requires i <= |ps|
    ensures CountIn(ps[..i], c) <= CountIn(ps, c)
  {
    if i == |ps| {
      assert ps[..i] == ps;
    } else {
      var init := ps[..|ps| - 1];
      assert ps[..i] == init[..i];
      CountPrefix(init, i, c);
    }
  }

  // ---------------------------------------------------------------------------
  // The accumulation loop
  // ---------------------------------------------------------------------------

  /**
   * The loop's dictionaries: `order` is the insertion order of `cat_counts`, the maps are
   * `cat_counts`, `cat_sums`, `cat_cnts`, `cat_mins` and `cat_maxs`, and `prices` is the
   * list of positive prices.
   */
  datatype Tally = Tally(
    order: seq<string>,
    counts: map<string, nat>,
    sums: map<string, real>,
    cnts: map<string, nat>,
    mins: map<string, real>,
    maxs: map<string, real>,
    prices: seq<real>)

  const EmptyTally := Tally([], map[], map[], map[], map[], map[], [])

  /** `order` after a product of category `c`: the category is appended when first seen. */
  function NextOrder(t: Tally, c: string): seq<string>
  {
    if c in t.counts then t.order else t.order + [c]
  }

  /** `cat_counts` after a product of category `c`. */
  function NextCounts(t: Tally, c: string): map<string, nat>
  {
    t.counts[c := (if c in t.counts then t.counts[c] else 0) + 1]
  }

  /** One iteration of `for p in reservoir`. */
  function Step(t: Tally, p: Product): Tally
  {
    var c := p.category;
    var counts := NextCounts(t, c);
    if p.price > 0.0 then
      Tally(
        NextOrder(t, c), counts,
        t.sums[c := (if c in t.sums then t.sums[c] else 0.0) + p.price],
        t.cnts[c := (if c in t.cnts then t.cnts[c] else 0) + 1],
        if c !in t.mins || p.price < t.mins[c] then t.mins[c := p.price] else t.mins,
        if c !in t.maxs || p.price > t.maxs[c] then t.maxs[c := p.price] else t.maxs,
        t.prices + [p.price])
    else
      Tally(NextOrder(t, c), counts, t.sums, t.cnts, t.mins, t.maxs, t.prices)
  }

  /** `cat_counts[c]` is present exactly when some product has category `c`, and counts them. */
  ghost predicate CountAgrees(t: Tally, ps: seq<Product>, c: string) {
    && (c in t.counts <==> CountIn(ps, c) > 0)
    && (c in t.counts ==> t.counts[c] == CountIn(ps, c))
  }

  ghost predicate CountsAgree(t: Tally, ps: seq<Product>) {
    forall c :: CountAgrees(t, ps, c)
  }

  /** Each listed category occurs in `ps`, and each category of `ps` is listed. */
  ghost predicate OrderCovers(order: seq<string>, ps: seq<Product>) {
    && (forall k :: 0 <= k < |order| ==> CountIn(ps, order[k]) > 0)
    && (forall c :: CountIn(ps, c) > 0 ==> c in order)
  }

  ghost predicate Distinct(order: seq<string>) {
    forall a, b :: 0 <= a < b < |order| ==> order[a] != order[b]
  }

  /** Whenever a prefix of `ps` contains a later-listed category, it contains every earlier-listed one. */
  ghost predicate ListedByFirstOccurrence(order: seq<string>, ps: seq<Product>) {
    forall a, b, i :: 0 <= a < b < |order| && 0 <= i <= |ps| && CountIn(ps[..i], order[b]) > 0 ==>
      CountIn(ps[..i], order[a]) > 0
  }

  /** `order` lists each category of `ps` once, in the order of first occurrence. */
  ghost predicate FirstSeenOrder(order: seq<string>, ps: seq<Product>) {
    OrderCovers(order, ps) && Distinct(order) && ListedByFirstOccurrence(order, ps)
  }

  /** The price aggregates of category `c` agree with its positive prices. */
  ghost predicate CategoryPriceAgrees(t: Tally, ps: seq<Product>, c: string) {
    && (c in t.cnts <==> |PricedIn(ps, c)| > 0)
    && (c in t.sums <==> c in t.cnts)
    && (c in t.mins <==> c in t.cnts)
    && (c in t.maxs <==> c in t.cnts)
    && (c in t.cnts ==>
          && t.cnts[c] == |PricedIn(ps, c)|
          && t.sums[c] == Numeric.Sum(PricedIn(ps, c))
          && t.mins[c] == Numeric.MinOf(PricedIn(ps, c))
          && t.maxs[c] == Numeric.MaxOf(PricedIn(ps, c)))
  }

  ghost predicate PricedAgree(t: Tally, ps: seq<Product>) {
    && t.prices == Priced(ps)
    && forall c :: CategoryPriceAgrees(t, ps, c)
  }

  lemma CountInAppend(ps: seq<Product>, p: Product, c: string)
    ensures CountIn(ps + [p], c) == CountIn(ps, c) + (if p.category == c then 1 else 0)
  {
    assert (ps + [p])[..|ps|] == ps;
  }

  lemma PrefixOfAppend(ps: seq<Product>, p: Product, i: nat)
    requires i <= |ps|
    ensures (ps + [p])[..i] == ps[..i]
  {
  }

  lemma StepCounts(t: Tally, ps: seq<Product>, p: Product)
    requires CountsAgree(t, ps)
    ensures CountsAgree(Step(t, p), ps + [p])
  {
    forall c ensures CountAgrees(Step(t, p), ps + [p], c) {
      CountInAppend(ps, p, c);
      assert CountAgrees(t, ps, c);
    }
  }

  lemma StepOrderCovers(t: Tally, ps: seq<Product>, p: Product)
    requires CountsAgree(t, ps) && OrderCovers(t.order, ps)
    ensures OrderCovers(NextOrder(t, p.category), ps + [p])
  {
    var o := NextOrder(t, p.category);
    forall k | 0 <= k < |o| ensures CountIn(ps + [p], o[k]) > 0 {
      CountInAppend(ps, p, o[k]);
    }
    assert CountAgrees(t, ps, p.category);
    forall c | CountIn(ps + [p], c) > 0 ensures c in o {
      CountInAppend(ps, p, c);
      if c != p.category {
        assert c in t.order;
        var k :| 0 <= k < |t.order| && t.order[k] == c;
        assert o[k] == c;
      }
    }
  }

  lemma StepDistinct(t: Tally, ps: seq<Product>, p: Product)
    requires CountsAgree(t, ps) && OrderCovers(t.order, ps) && Distinct(t.order)
    ensures Distinct(NextOrder(t, p.category))
  {
    var c := p.category;
    if c !in t.counts {
      assert CountAgrees(t, ps, c);
      assert c !in t.order;
    }
  }

  lemma StepFirstOccurrence(t: Tally, ps: seq<Product>, p: Product)
    requires CountsAgree(t, ps) && OrderCovers(t.order, ps) && ListedByFirstOccurrence(t.order, ps)
    ensures ListedByFirstOccurrence(NextOrder(t, p.category), ps + [p])
  {
    var q := ps + [p];
    var c := p.category;
    var o := NextOrder(t, c);
    forall a, b, i | 0 <= a < b < |o| && 0 <= i <= |q| && CountIn(q[..i], o[b]) > 0
      ensures CountIn(q[..i], o[a]) > 0
    {
      if i == |q| {
        assert q[..i] == q;
        CountInAppend(ps, p, o[a]);
      } else {
        PrefixOfAppend(ps, p, i);
        if b == |t.order| {
          assert CountAgrees(t, ps, c);
          CountPrefix(ps, i, c);
        }
      }
    }
  }

  lemma PricedAppend(ps: seq<Product>, p: Product)
    ensures Priced(ps + [p]) == if p.price > 0.0 then Priced(ps) + [p.price] else Priced(ps)
  {
    assert (ps + [p])[..|ps|] == ps;
  }

  lemma PricedInAppend(ps: seq<Product>, p: Product, c: string)
    ensures PricedIn(ps + [p], c) == if p.price > 0.0 && p.category == c then PricedIn(ps, c) + [p.price] else PricedIn(ps, c)
  {
    assert (ps + [p])[..|ps|] == ps;
  }

  lemma StepCategoryPrice(t: Tally, ps: seq<Product>, p: Product, x: string)
    requires CategoryPriceAgrees(t, ps, x)
    ensures CategoryPriceAgrees(Step(t, p), ps + [p], x)
  {
    PricedInAppend(ps, p, x);
    if p.price > 0.0 && p.category == x {
      StepCategoryPriceHit(t, ps, p);
    } else {
      var t2 := Step(t, p);
      assert x in t2.cnts <==> x in t.cnts;
      assert x in t2.sums <==> x in t.sums;
      assert x in t2.mins <==> x in t.mins;
      assert x in t2.maxs <==> x in t.maxs;
      assert x in t.cnts ==> t2.cnts[x] == t.cnts[x] && t2.sums[x] == t.sums[x];
      assert x in t.cnts ==> t2.mins[x] == t.mins[x] && t2.maxs[x] == t.maxs[x];
    }
  }

  lemma StepCategoryPriceHit(t: Tally, ps: seq<Product>, p: Product)
    requires CategoryPriceAgrees(t, ps, p.category) && p.price > 0.0
    ensures CategoryPriceAgrees(Step(t, p), ps + [p], p.category)
  {
    StepHitCount(t, ps, p);
    StepHitSum(t, ps, p);
    StepHitMin(t, ps, p);
    StepHitMax(t, ps, p);
  }

  lemma StepHitCount(t: Tally, ps: seq<Product>, p: Product)
    requires CategoryPriceAgrees(t, ps, p.category) && p.price > 0.0
    ensures var t2 := Step(t, p); var c := p.category;
      && c in t2.cnts && c in t2.sums && c in t2.mins && c in t2.maxs
      && |PricedIn(ps + [p], c)| > 0 && t2.cnts[c] == |PricedIn(ps + [p], c)|
  {
    PricedInAppend(ps, p, p.category);
    StepAtCategory(t, p);
  }

  lemma StepHitSum(t: Tally, ps: seq<Product>, p: Product)
    requires CategoryPriceAgrees(t, ps, p.category) && p.price > 0.0
    ensures Step(t, p).sums[p.category] == Numeric.Sum(PricedIn(ps + [p], p.category))
  {
    var s := PricedIn(ps, p.category);
    PricedInAppend(ps, p, p.category);
    StepAtCategory(t, p);
    Numeric.SumAppend(s, p.price);
    assert s == [] ==> Numeric.Sum(s) == 0.0;
  }

  lemma StepHitMin(t: Tally, ps: seq<Product>, p: Product)
    requires CategoryPriceAgrees(t, ps, p.category) && p.price > 0.0
    ensures Step(t, p).mins[p.category] == Numeric.MinOf(PricedIn(ps + [p], p.category))
  {
    PricedInAppend(ps, p, p.category);
    StepAtCategory(t, p);
    Numeric.MinOfAppend(PricedIn(ps, p.category), p.price);
  }

  lemma StepHitMax(t: Tally, ps: seq<Product>, p: Product)
    requires CategoryPriceAgrees(t, ps, p.category) && p.price > 0.0
    ensures Step(t, p).maxs[p.category] == Numeric.MaxOf(PricedIn(ps + [p], p.category))
  {
    PricedInAppend(ps, p, p.category);
    StepAtCategory(t, p);
    Numeric.MaxOfAppend(PricedIn(ps, p.category), p.price);
  }

  /** A priced product enters its category's count, sum, minimum and maximum. */
  lemma StepAtCategory(t: Tally, p: Product)
    requires p.price > 0.0
    ensures var t2 := Step(t, p); var c := p.category;
      && c in t2.cnts && c in t2.sums && c in t2.mins && c in t2.maxs
      && t2.cnts[c] == (if c in t.cnts then t.cnts[c] else 0) + 1
      && t2.sums[c] == (if c in t.sums then t.sums[c] else 0.0) + p.price
      && t2.mins[c] == (if c !in t.mins || p.price < t.mins[c] then p.price else t.mins[c])
      && t2.maxs[c] == (if c !in t.maxs || p.price > t.maxs[c] then p.price else t.maxs[c])
  {
  }

  lemma StepPriced(t: Tally, ps: seq<Product>, p: Product)
    requires PricedAgree(t, ps)
    ensures PricedAgree(Step(t, p), ps + [p])
  {
    PricedAppend(ps, p);
    forall x ensures CategoryPriceAgrees(Step(t, p), ps + [p], x) {
      StepCategoryPrice(t, ps, p, x);
    }
  }

  lemma OrderKeysCounted(t: Tally, ps: seq<Product>)
    requires CountsAgree(t, ps) && OrderCovers(t.order, ps)
    ensures forall k :: 0 <= k < |t.order| ==> t.order[k] in t.counts
  {
    forall k | 0 <= k < |t.order| ensures t.order[k] in t.counts {
      assert CountAgrees(t, ps, t.order[k]);
    }
  }

  lemma PricedKeys(t: Tally, ps: seq<Product>)
    requires PricedAgree(t, ps)
    ensures t.sums.Keys == t.cnts.Keys && t.mins.Keys == t.cnts.Keys && t.maxs.Keys == t.cnts.Keys
    ensures forall c :: c in t.cnts ==> t.cnts[c] > 0
  {
    forall c ensures (c in t.sums <==> c in t.cnts) && (c in t.mins <==> c in t.cnts) && (c in t.maxs <==> c in t.cnts) {
      assert CategoryPriceAgrees(t, ps, c);
    }
    forall c | c in t.cnts ensures t.cnts[c] > 0 {
      assert CategoryPriceAgrees(t, ps, c);
    }
  }

  /** The whole loop: the tally after every product of `ps`, in order. */
  function Pass(ps: seq<Product>): Tally
  {
    if |ps| == 0 then EmptyTally else Step(Pass(ps[..|ps| - 1]), ps[|ps| - 1])
  }

  /** `cat_counts` counts every category of the products. */
  lemma {:induction false} PassCounts(ps: seq<Product>)
    ensures CountsAgree(Pass(ps), ps)
  {
    if |ps| > 0 {
      var init := ps[..|ps| - 1];
      assert ps == init + [ps[|ps| - 1]];
      PassCounts(init);
      StepCounts(Pass(init), init, ps[|ps| - 1]);
    }
  }

  /** The insertion order of `cat_counts` is the order in which categories first occur. */
  lemma {:induction false} PassOrder(ps: seq<Product>)
    ensures FirstSeenOrder(Pass(ps).order, ps)
  {
    if |ps| > 0 {
      var init := ps[..|ps| - 1];
      var p := ps[|ps| - 1];
      assert ps == init + [p];
      PassCounts(init);
      PassOrder(init);
      var t := Pass(init);
      StepOrderCovers(t, init, p);
      StepDistinct(t, init, p);
      StepFirstOccurrence(t, init, p);
    }
  }

  /** The price list and the per-category aggregates agree with the positive prices. */
  lemma {:induction false} PassPriced(ps: seq<Product>)
    ensures PricedAgree(Pass(ps), ps)
  {
    if |ps| > 0 {
      var init := ps[..|ps| - 1];
      assert ps == init + [ps[|ps| - 1]];
      PassPriced(init);
      StepPriced(Pass(init), init, ps[|ps| - 1]);
    }
  }

  /** The facts about the final tally that the summary step relies on. */
  lemma PassShape(ps: seq<Product>)
    ensures var t := Pass(ps);
      && (forall k :: 0 <= k < |t.order| ==> t.order[k] in t.counts)
      && t.sums.Keys == t.cnts.Keys && t.mins.Keys == t.cnts.Keys && t.maxs.Keys == t.cnts.Keys
      && (forall c :: c in t.cnts ==> t.cnts[c] > 0)
      && t.prices == Priced(ps)
  {
    PassCounts(ps);
    PassOrder(ps);
    PassPriced(ps);
    OrderKeysCounted(Pass(ps), ps);
    PricedKeys(Pass(ps), ps);
  }

  // ---------------------------------------------------------------------------
  // Category counts sorted by count
  // ---------------------------------------------------------------------------

  /** A (category, count) item of `category_counts`. */
  type Entry = (string, nat)

  /** `cat_counts.items()` in insertion order. */
  function Entries(order: seq<string>, counts: map<string, nat>): (r: seq<Entry>)
    ensures |r| == |order|
    ensures forall k :: 0 <= k < |r| ==> r[k].0 == order[k]
    ensures forall k :: 0 <= k < |r| && order[k] in counts ==> r[k].1 == counts[order[k]]
  {
    seq(|order|, k requires 0 <= k < |order| => (order[k], if order[k] in counts then counts[order[k]] else 0))
  }

  ghost predicate DescendingCounts(s: seq<Entry>) {
    forall i, j :: 0 <= i < j < |s| ==> s[i].1 >= s[j].1
  }

  /** Places `x` before the first entry whose count does not exceed its own. */
  function InsertByCount(x: Entry, s: seq<Entry>): (r: seq<Entry>)
    requires DescendingCounts(s)
    ensures |r| == |s| + 1
    ensures DescendingCounts(r)
    ensures multiset(r) == multiset(s) + multiset{x}
  {
    if |s| == 0 || s[0].1 <= x.1 then [x] + s
    else
      var t := InsertByCount(x, s[1..]);
      assert s == [s[0]] + s[1..];
      assert forall j :: 0 <= j < |t| ==> t[j] in multiset(s[1..]) + multiset{x};
      assert forall j :: 1 <= j < |s| ==> s[0].1 >= s[j].1;
      InsertKeepsHeadFirst(x, s, t);
      [s[0]] + t
  }

  lemma InsertKeepsHeadFirst(x: Entry, s: seq<Entry>, t: seq<Entry>)
    requires |s| > 0 && s[0].1 > x.1 && DescendingCounts(s) && DescendingCounts(t)
    requires multiset(t) == multiset(s[1..]) + multiset{x}
    ensures DescendingCounts([s[0]] + t)
  {
    forall j | 0 <= j < |t| ensures s[0].1 >= t[j].1 {
      assert t[j] in multiset(t);
      if t[j] != x {
        assert t[j] in multiset(s[1..]);
        var i :| 0 <= i < |s[1..]| && s[1..][i] == t[j];
        assert s[i + 1] == t[j];
      }
    }
  }

  /**
   * `sorted(items, key=count, reverse=True)`: an insertion sort that keeps entries with
   * equal counts in their original order.
   */
  function SortByCount(s: seq<Entry>): (r: seq<Entry>)
    ensures |r| == |s|
    ensures DescendingCounts(r)
    ensures multiset(r) == multiset(s)
  {
    if |s| == 0 then []
    else
      assert s == [s[0]] + s[1..];
      InsertByCount(s[0], SortByCount(s[1..]))
  }

  /** The entries of `s` whose count is `v`, in order. */
  function WithCount(s: seq<Entry>, v: nat): seq<Entry>
  {
    if |s| == 0 then [] else (if s[0].1 == v then [s[0]] else []) + WithCount(s[1..], v)
  }

  lemma {:induction false} InsertWithCount(x: Entry, s: seq<Entry>, v: nat)
    requires DescendingCounts(s)
    ensures WithCount(InsertByCount(x, s), v) == (if x.1 == v then [x] else []) + WithCount(s, v)
  {
    if |s| == 0 || s[0].1 <= x.1 {
      InsertAtFront(x, s);
      WithCountCons(x, s, v);
    } else {
      var t := InsertByCount(x, s[1..]);
      InsertBehindHead(x, s);
      InsertWithCount(x, s[1..], v);
      WithCountCons(s[0], t, v);
      WithCountCons(s[0], s[1..], v);
      assert [s[0]] + s[1..] == s;
    }
  }

  lemma InsertAtFront(x: Entry, s: seq<Entry>)
    requires DescendingCounts(s) && (|s| == 0 || s[0].1 <= x.1)
    ensures InsertByCount(x, s) == [x] + s
  {
  }

  lemma InsertBehindHead(x: Entry, s: seq<Entry>)
    requires DescendingCounts(s) && |s| > 0 && s[0].1 > x.1
    ensures InsertByCount(x, s) == [s[0]] + InsertByCount(x, s[1..])
  {
  }

  lemma WithCountCons(e: Entry, s: seq<Entry>, v: nat)
    ensures WithCount([e] + s, v) == (if e.1 == v then [e] else []) + WithCount(s, v)
  {
    assert ([e] + s)[1..] == s;
  }

  /** Sorting is stable: the entries sharing a count keep their relative order. */
  lemma {:induction false} SortStable(s: seq<Entry>, v: nat)
    ensures WithCount(SortByCount(s), v) == WithCount(s, v)
  {
    if |s| > 0 {
      SortStable(s[1..], v);
      InsertWithCount(s[0], SortByCount(s[1..]), v);
    }
  }

  /** The counts of `s` added up. */
  function TotalCount(s: seq<Entry>): nat
  {
    if |s| == 0 then 0 else s[0].1 + TotalCount(s[1..])
  }

  lemma {:induction false} TotalCountInsert(x: Entry, s: seq<Entry>)
    requires DescendingCounts(s)
    ensures TotalCount(InsertByCount(x, s)) == x.1 + TotalCount(s)
  {
    if |s| == 0 || s[0].1 <= x.1 {
      assert ([x] + s)[1..] == s;
    } else {
      TotalCountInsert(x, s[1..]);
      assert ([s[0]] + InsertByCount(x, s[1..]))[1..] == InsertByCount(x, s[1..]);
    }
  }

  lemma {:induction false} TotalCountSorted(s: seq<Entry>)
    ensures TotalCount(SortByCount(s)) == TotalCount(s)
  {
    if |s| > 0 {
      TotalCountSorted(s[1..]);
      TotalCountInsert(s[0], SortByCount(s[1..]));
    }
  }

  lemma {:induction false} TotalCountAppend(s: seq<Entry>, x: Entry)
    ensures TotalCount(s + [x]) == TotalCount(s) + x.1
  {
    if |s| > 0 {
      TotalCountAppend(s[1..], x);
      assert (s + [x])[1..] == s[1..] + [x];
    }
  }

  /** Summing the counts of distinct categories that are all of `ps`'s categories gives `|ps|`. */
  lemma {:induction false} CountsAddUp(ps: seq<Product>)
    ensures var t := Pass(ps); TotalCount(Entries(t.order, t.counts)) == |ps|
  {
    if |ps| > 0 {
      var init := ps[..|ps| - 1];
      var p := ps[|ps| - 1];
      assert ps == init + [p];
      CountsAddUp(init);
      PassCounts(init);
      PassOrder(init);
      var t := Pass(init);
      OrderKeysCounted(t, init);
      assert CountAgrees(t, init, p.category);
      assert p.category in t.counts <==> p.category in t.order;
      assert Pass(ps).order == NextOrder(t, p.category) && Pass(ps).counts == NextCounts(t, p.category);
      CountsStep(t, p.category);
    }
  }

  /** Recording one more product of category `c` raises the total count by one. */
  lemma CountsStep(t: Tally, c: string)
    requires forall k :: 0 <= k < |t.order| ==> t.order[k] in t.counts
    requires Distinct(t.order)
    requires c in t.counts <==> c in t.order
    ensures TotalCount(Entries(NextOrder(t, c), NextCounts(t, c))) == TotalCount(Entries(t.order, t.counts)) + 1
  {
    var e := Entries(t.order, t.counts);
    var m := NextCounts(t, c);
    var f := Entries(NextOrder(t, c), m);
    if c in t.counts {
      var k :| 0 <= k < |t.order| && t.order[k] == c;
      forall j | 0 <= j < |e| && j != k ensures f[j] == e[j] {
        assert t.order[j] != c;
      }
      TotalCountBump(e, f, k);
    } else {
      var g := Entries(t.order, m);
      assert f == g + [(c, 1)];
      forall j | 0 <= j < |e| ensures g[j] == e[j] {
        assert t.order[j] != c;
      }
      assert g == e;
      TotalCountAppend(e, (c, 1));
    }
  }

  /** Raising one entry's count by one raises the total by one. */
  lemma {:induction false} TotalCountBump(e: seq<Entry>, f: seq<Entry>, k: nat)
    requires k < |e| == |f|
    requires f[k] == (e[k].0, e[k].1 + 1)
    requires forall j :: 0 <= j < |e| && j != k ==> f[j] == e[j]
    ensures TotalCount(f) == TotalCount(e) + 1
  {
    if k > 0 {
      TotalCountBump(e[1..], f[1..], k - 1);
    } else {
      assert e[1..] == f[1..];
    }
  }

  // ---------------------------------------------------------------------------
  // Price summary
  // ---------------------------------------------------------------------------

  /** `avg_price`, `median_price`, `min_price` and `max_price`. */
  datatype PriceStats = PriceStats(avg: real, median: real, min: real, max: real)

  /**
   * The price summary of the positive prices: all zero when there are none; otherwise the
   * mean, the element at index n/2 of the ascending order, the least and the greatest.
   */
  function Summarize(prices: seq<real>): (r: PriceStats)
    ensures |prices| == 0 ==> r == PriceStats(0.0, 0.0, 0.0, 0.0)
    ensures |prices| > 0 ==> r.min == Numeric.MinOf(prices) && r.max == Numeric.MaxOf(prices)
    ensures |prices| > 0 ==> r.median in prices && r.min <= r.median <= r.max
    ensures |prices| > 0 ==> Numeric.HasRank(prices, r.median, |prices| / 2)
    ensures |prices| > 0 ==> r.avg == Numeric.Sum(prices) / |prices| as real
    ensures |prices| > 0 ==> r.min <= r.avg <= r.max
  {
    if |prices| == 0 then PriceStats(0.0, 0.0, 0.0, 0.0)
    else
      var sorted := Numeric.SortAscending(prices);
      var avg := Numeric.Sum(prices) / |prices| as real;
      SummaryFacts(prices, sorted);
      PriceStats(
        avg,
        sorted[|sorted| / 2],
        sorted[0],
        sorted[|sorted| - 1])
  }

  lemma SummaryFacts(prices: seq<real>, sorted: seq<real>)
    requires |prices| > 0 && sorted == Numeric.SortAscending(prices)
    ensures sorted[0] == Numeric.MinOf(prices) && sorted[|sorted| - 1] == Numeric.MaxOf(prices)
    ensures sorted[|sorted| / 2] in prices && sorted[0] <= sorted[|sorted| / 2] <= sorted[|sorted| - 1]
    ensures sorted[0] <= Numeric.Sum(prices) / |prices| as real <= sorted[|sorted| - 1]
    ensures Numeric.HasRank(prices, sorted[|sorted| / 2], |prices| / 2)
  {
    Numeric.SortedElementHasRank(prices, |prices| / 2);
    Numeric.SortedEnds(prices, sorted);
    Numeric.MinOfUnique(prices, sorted[0]);
    Numeric.MaxOfUnique(prices, sorted[|sorted| - 1]);
    assert sorted[|sorted| / 2] in multiset(sorted);
    Numeric.MeanBounds(prices, sorted[0], sorted[|sorted| - 1]);
  }

  // ---------------------------------------------------------------------------
  // The precomputed bundle
  // ---------------------------------------------------------------------------

  /** `PrecomputedData` without `std_price`. */
  datatype PrecomputedData = PrecomputedData(
    products: seq<Product>,
    categoryCounts: seq<Entry>,
    categoryAvgPrices: map<string, real>,
    categoryMinPrices: map<string, real>,
    categoryMaxPrices: map<string, real>,
    totalProducts: nat,
    totalInCsv: nat,
    pricedProducts: nat,
    prices: PriceStats,
    zeroPriceCount: nat)

  /** The statistics block of `load_and_cache` over the sampled products. */
  function Precompute(ps: seq<Product>, totalRows: nat): (d: PrecomputedData)
    ensures d.products == ps && d.totalProducts == |ps| && d.totalInCsv == totalRows
    ensures d.pricedProducts + d.zeroPriceCount == |ps|
    ensures d.zeroPriceCount == CountNonPositive(ps)
    ensures DescendingCounts(d.categoryCounts)
    ensures d.categoryMinPrices.Keys == d.categoryAvgPrices.Keys == d.categoryMaxPrices.Keys
  {
    var t := Pass(ps);
    PassShape(ps);
    PricedSplit(ps);
    PrecomputedData(
      products := ps,
      categoryCounts := SortByCount(Entries(t.order, t.counts)),
      categoryAvgPrices := map c | c in t.cnts :: t.sums[c] / t.cnts[c] as real,
      categoryMinPrices := t.mins,
      categoryMaxPrices := t.maxs,
      totalProducts := |ps|,
      totalInCsv := totalRows,
      pricedProducts := |t.prices|,
      prices := Summarize(t.prices),
      zeroPriceCount := |ps| - |t.prices|)
  }

  /** The entries of the tally pair each category of the products with its count, once each. */
  lemma EntriesExact(ps: seq<Product>)
    ensures var t := Pass(ps); var e := Entries(t.order, t.counts);
      && (forall i :: 0 <= i < |e| ==> e[i].1 == CountIn(ps, e[i].0) > 0)
      && (forall a, b :: 0 <= a < b < |e| ==> e[a].0 != e[b].0)
      && (forall c :: CountIn(ps, c) > 0 ==> exists i :: 0 <= i < |e| && e[i].0 == c)
  {
    PassCounts(ps);
    PassOrder(ps);
    var t := Pass(ps);
    OrderKeysCounted(t, ps);
    var e := Entries(t.order, t.counts);
    forall i | 0 <= i < |e| ensures e[i].1 == CountIn(ps, e[i].0) > 0 {
      assert CountAgrees(t, ps, t.order[i]);
    }
    forall c | CountIn(ps, c) > 0 ensures exists i :: 0 <= i < |e| && e[i].0 == c {
      var i :| 0 <= i < |t.order| && t.order[i] == c;
      assert e[i].0 == c;
    }
  }

  /** A permutation of a sequence with distinct keys has distinct keys. */
  lemma PermutationKeepsDistinctKeys(e: seq<Entry>, cc: seq<Entry>)
    requires multiset(cc) == multiset(e)
    requires forall a, b :: 0 <= a < b < |e| ==> e[a].0 != e[b].0
    ensures forall a, b :: 0 <= a < b < |cc| ==> cc[a].0 != cc[b].0
  {
    forall a, b | 0 <= a < b < |cc| ensures cc[a].0 != cc[b].0 {
      assert cc[a] in multiset(e) && cc[b] in multiset(e);
      var i :| 0 <= i < |e| && e[i] == cc[a];
      var j :| 0 <= j < |e| && e[j] == cc[b];
      if cc[a].0 == cc[b].0 {
        assert i == j;
        MultisetTwice(cc, a, b);
        DistinctEntryOnce(e, i);
      }
    }
  }

  lemma MultisetTwice(s: seq<Entry>, a: nat, b: nat)
    requires a < b < |s| && s[a] == s[b]
    ensures multiset(s)[s[a]] >= 2
  {
    assert s == s[..a] + [s[a]] + s[a + 1..b] + [s[b]] + s[b + 1..];
  }

  /** An entry of a sequence with distinct keys occurs in it once. */
  lemma DistinctEntryOnce(e: seq<Entry>, i: nat)
    requires i < |e| && forall a, b :: 0 <= a < b < |e| ==> e[a].0 != e[b].0
    ensures multiset(e)[e[i]] == 1
  {
    assert e == e[..i] + [e[i]] + e[i + 1..];
    assert e[i] !in multiset(e[..i]);
    assert e[i] !in multiset(e[i + 1..]);
  }

  /**
   * `category_counts` lists every category of the products exactly once, with its number of
   * products.
   */
  lemma CategoryCountsExact(ps: seq<Product>, totalRows: nat)
    ensures var cc := Precompute(ps, totalRows).categoryCounts;
      && (forall k :: 0 <= k < |cc| ==> cc[k].1 == CountIn(ps, cc[k].0) > 0)
      && (forall a, b :: 0 <= a < b < |cc| ==> cc[a].0 != cc[b].0)
      && (forall c :: CountIn(ps, c) > 0 ==> exists k :: 0 <= k < |cc| && cc[k].0 == c)
  {
    var t := Pass(ps);
    var e := Entries(t.order, t.counts);
    PrecomputedCounts(ps, totalRows);
    EntriesExact(ps);
    SortedEntriesExact(ps, e, SortByCount(e));
  }

  lemma PrecomputedCounts(ps: seq<Product>, totalRows: nat)
    ensures Precompute(ps, totalRows).categoryCounts == SortByCount(Entries(Pass(ps).order, Pass(ps).counts))
  {
  }

  lemma SortedEntriesExact(ps: seq<Product>, e: seq<Entry>, cc: seq<Entry>)
    requires multiset(cc) == multiset(e)
    requires forall i :: 0 <= i < |e| ==> e[i].1 == CountIn(ps, e[i].0) > 0
    requires forall a, b :: 0 <= a < b < |e| ==> e[a].0 != e[b].0
    requires forall c :: CountIn(ps, c) > 0 ==> exists i :: 0 <= i < |e| && e[i].0 == c
    ensures forall k :: 0 <= k < |cc| ==> cc[k].1 == CountIn(ps, cc[k].0) > 0
    ensures forall a, b :: 0 <= a < b < |cc| ==> cc[a].0 != cc[b].0
    ensures forall c :: CountIn(ps, c) > 0 ==> exists k :: 0 <= k < |cc| && cc[k].0 == c
  {
    forall k | 0 <= k < |cc| ensures cc[k].1 == CountIn(ps, cc[k].0) > 0 {
      assert cc[k] in multiset(e);
    }
    forall c | CountIn(ps, c) > 0 ensures exists k :: 0 <= k < |cc| && cc[k].0 == c {
      var i :| 0 <= i < |e| && e[i].0 == c;
      assert e[i] in multiset(cc);
    }
    PermutationKeepsDistinctKeys(e, cc);
  }

  /** The counts in `category_counts` add up to the number of sampled products. */
  lemma CategoryCountsTotal(ps: seq<Product>, totalRows: nat)
    ensures TotalCount(Precompute(ps, totalRows).categoryCounts) == |ps|
  {
    var t := Pass(ps);
    var e := Entries(t.order, t.counts);
    assert SortByCount(e) == Precompute(ps, totalRows).categoryCounts;
    CountsAddUp(ps);
    TotalCountSorted(e);
  }

  /**
   * Categories with the same count appear in `category_counts` in the order in which their
   * first products appear in the sample.
   */
  lemma TiesKeepFirstSeenOrder(ps: seq<Product>, totalRows: nat, v: nat)
    ensures var t := Pass(ps);
      && FirstSeenOrder(t.order, ps)
      && WithCount(Precompute(ps, totalRows).categoryCounts, v) == WithCount(Entries(t.order, t.counts), v)
  {
    var t := Pass(ps);
    PassOrder(ps);
    assert Precompute(ps, totalRows).categoryCounts == SortByCount(Entries(t.order, t.counts));
    SortStable(Entries(t.order, t.counts), v);
  }

  /**
   * `priced_products` and the price summary are computed over exactly the positive prices,
   * and the summary's minimum is itself a positive price.
   */
  lemma PriceSummaryOfPositivePrices(ps: seq<Product>, totalRows: nat)
    ensures var d := Precompute(ps, totalRows);
      && d.pricedProducts == |Priced(ps)|
      && d.prices == Summarize(Priced(ps))
      && (d.pricedProducts > 0 ==> d.prices.min > 0.0)
  {
    PassShape(ps);
    var p := Priced(ps);
    if |p| > 0 {
      assert Numeric.MinOf(p) in p;
    }
  }

  /**
   * The per-category price maps cover exactly the categories with a positive price; each
   * category's minimum and maximum are the least and greatest of its positive prices, and its
   * average is their sum over their count, which lies between them.
   */
  lemma CategoryPricesAgree(ps: seq<Product>, totalRows: nat, c: string)
    ensures var d := Precompute(ps, totalRows);
      && (c in d.categoryAvgPrices <==> |PricedIn(ps, c)| > 0)
      && (c in d.categoryAvgPrices ==>
            && d.categoryMinPrices[c] == Numeric.MinOf(PricedIn(ps, c))
            && d.categoryMaxPrices[c] == Numeric.MaxOf(PricedIn(ps, c))
            && d.categoryAvgPrices[c] == Numeric.Sum(PricedIn(ps, c)) / |PricedIn(ps, c)| as real
            && d.categoryMinPrices[c] <= d.categoryAvgPrices[c] <= d.categoryMaxPrices[c])
  {
    var t := Pass(ps);
    PassPriced(ps);
    assert CategoryPriceAgrees(t, ps, c);
    var d := Precompute(ps, totalRows);
    assert c in d.categoryAvgPrices <==> c in t.cnts;
    if c in t.cnts {
      assert d.categoryAvgPrices[c] == t.sums[c] / t.cnts[c] as real;
      assert d.categoryMinPrices[c] == t.mins[c] && d.categoryMaxPrices[c] == t.maxs[c];
      AverageWithinRange(PricedIn(ps, c));
    }
  }

  lemma AverageWithinRange(s: seq<real>)
    requires |s| > 0
    ensures Numeric.MinOf(s) <= Numeric.Sum(s) / |s| as real <= Numeric.MaxOf(s)
  {
    Numeric.MeanBounds(s, Numeric.MinOf(s), Numeric.MaxOf(s));
  }
}

=== FILE: data_loader.dfy ===
/**
 * Catalog ingestion: the keyword category classifier, the field extractor for the
 * free-text catalog blob, the row-to-product construction, algorithm R reservoir
 * sampling over the row stream, and the initial market state of a product.
 */
module DataLoader {
  import opened Wrappers
  import opened Text
  import opened Models
  import CatalogStats
  import Numeric

  /** `MAX_PRODUCTS`: the capacity of the reservoir. */
  const MaxProducts: nat := 10000

  // ---------------------------------------------------------------------------
  // Category classifier
  // ---------------------------------------------------------------------------

  /** A category label and the keywords that select it. */
  datatype Rule = Rule(category: string, keywords: seq<string>)

  /** `_CAT_RULES`, in declaration order; the order decides which rule wins. */
  const CategoryRules: seq<Rule> := [
    Rule("Coffee & Tea", ["coffee", "tea", "espresso", "latte", "brew", "chai", "matcha"]),
    Rule("Beverages", ["water", "juice", "soda", "drink", "beverage", "cola", "lemonade"]),
    Rule("Snacks & Chips", ["chip", "snack", "pretzel", "popcorn", "cracker", "cookie", "nuts"]),
    Rule("Candy & Sweets", ["candy", "chocolate", "gum", "mint", "sweet", "gummy", "caramel"]),
    Rule("Spices & Seasoning", ["spice", "seasoning", "pepper", "salt", "cinnamon", "cumin", "paprika"]),
    Rule("Health & Wellness", ["vitamin", "supplement", "protein", "organic", "health", "probiotic"]),
    Rule("Dairy & Refrigerated", ["milk", "cheese", "yogurt", "butter", "cream", "dairy", "egg"]),
    Rule("Canned & Packaged", ["canned", "soup", "sauce", "paste", "jar", "broth", "stock"]),
    Rule("Baking & Cooking", ["flour", "sugar", "baking", "yeast", "vanilla", "cocoa", "mix"])
  ]

  /** The label of a name no rule matches. */
  const OtherLabel := "Other"

  /** Every label the classifier can produce. */
  const CategoryLabels: set<string> :=
    {"Coffee & Tea", "Beverages", "Snacks & Chips", "Candy & Sweets", "Spices & Seasoning",
     "Health & Wellness", "Dairy & Refrigerated", "Canned & Packaged", "Baking & Cooking", "Other"}

  /** Some keyword of `rule` occurs in `name`. */
  ghost predicate RuleMatches(rule: Rule, name: string) {
    exists k :: 0 <= k < |rule.keywords| && IsInfix(rule.keywords[k], name)
  }

  /** Rule `k` matches `name` and no rule declared before it does. */
  ghost predicate FirstMatchAt(name: string, k: int) {
    && 0 <= k < |CategoryRules|
    && RuleMatches(CategoryRules[k], name)
    && forall j :: 0 <= j < k ==> !RuleMatches(CategoryRules[j], name)
  }

  /** The inner `for kw in kws` loop: does any keyword occur in `name`? */
  function HasKeyword(name: string, keywords: seq<string>): (r: bool)
    ensures r <==> exists k :: 0 <= k < |keywords| && IsInfix(keywords[k], name)
  {
    if |keywords| == 0 then false
    else
      assert forall k :: 1 <= k < |keywords| ==> keywords[k] == keywords[1..][k - 1];
      Contains(name, keywords[0]) || HasKeyword(name, keywords[1..])
  }

  /** The outer loop of `_classify`, resumed at rule `from` once the earlier rules failed. */
  function ClassifyFrom(name: string, from: nat): (r: string)
    requires from <= |CategoryRules|
    requires forall j :: 0 <= j < from ==> !RuleMatches(CategoryRules[j], name)
    ensures r in CategoryLabels
    ensures r == OtherLabel <==> forall k :: 0 <= k < |CategoryRules| ==> !RuleMatches(CategoryRules[k], name)
    ensures r != OtherLabel ==> exists k :: FirstMatchAt(name, k) && r == CategoryRules[k].category
    decreases |CategoryRules| - from
  {
    if from == |CategoryRules| then OtherLabel
    else if HasKeyword(name, CategoryRules[from].keywords) then
      assert FirstMatchAt(name, from);
      CategoryRules[from].category
    else ClassifyFrom(name, from + 1)
  }

  /**
   * `_classify(name_lower)`: the label of the first rule, in declaration order, with a
   * keyword occurring in the name, and "Other" when there is none.
   */
  function Classify(nameLower: string): (r: string)
    ensures r in CategoryLabels
    ensures r == OtherLabel <==> forall k :: 0 <= k < |CategoryRules| ==> !RuleMatches(CategoryRules[k], nameLower)
    ensures r != OtherLabel ==> exists k :: FirstMatchAt(nameLower, k) && r == CategoryRules[k].category
  {
    ClassifyFrom(nameLower, 0)
  }

  /** When two rules match, the one declared first wins: "organic" would select Health & Wellness. */
  lemma ClassifyChaiTea()
    ensures RuleMatches(CategoryRules[5], "organic chai tea bags")
    ensures Classify("organic chai tea bags") == "Coffee & Tea"
  {
    var s := "organic chai tea bags";
    assert InfixAt("organic", s, 0);
    assert CategoryRules[5].keywords[3] == "organic";
    assert InfixAt("tea", s, 13);
    assert CategoryRules[0].keywords[1] == "tea";
    assert RuleMatches(CategoryRules[0], s);
    var k :| FirstMatchAt(s, k) && Classify(s) == CategoryRules[k].category;
    if k > 0 {
      EarlierRulesMiss(s, k, 0);
    }
  }

  lemma EarlierRulesMiss(name: string, k: int, j: nat)
    requires FirstMatchAt(name, k) && j < k
    ensures !RuleMatches(CategoryRules[j], name)
  {
  }

  /** No keyword occurs in the empty name, so it is classified "Other". */
  lemma ClassifyEmpty()
    ensures Classify("") == OtherLabel
  {
    forall k | 0 <= k < |CategoryRules| ensures !RuleMatches(CategoryRules[k], "") {
      NoEmptyKeyword(k);
      forall w | 0 <= w < |CategoryRules[k].keywords| ensures !IsInfix(CategoryRules[k].keywords[w], "") {
        assert CategoryRules[k].keywords[w] in CategoryRules[k].keywords;
      }
    }
  }

  lemma NoEmptyKeyword(k: nat)
    requires k < |CategoryRules|
    ensures "" !in CategoryRules[k].keywords
  {
  }

  // ---------------------------------------------------------------------------
  // Field extraction from the catalog blob
  // ---------------------------------------------------------------------------

  const NameMarker := "item_name"
  const BulletMarker := "bullet_point"
  const DescMarker := "product_description"

  const NameLimit: nat := 120
  const BulletsLimit: nat := 200
  const DescLimit: nat := 300
  const FallbackLimit: nat := 80

  /** The three fields `_fast_parse_catalog` extracts. */
  datatype CatalogFields = CatalogFields(name: string, bullets: string, desc: string)

  /** `low.find(marker)` on the lower-cased blob; -1 when the marker is absent. */
  function MarkerIndex(raw: string, marker: string): (r: int)
    ensures r == -1 || (0 <= r && r + |marker| <= |raw|)
    ensures r == -1 <==> !IsInfix(marker, Lower(raw))
    ensures r >= 0 ==> InfixAt(marker, Lower(raw), r)
    ensures r >= 0 ==> forall i :: 0 <= i < r ==> !InfixAt(marker, Lower(raw), i)
  {
    var r := Find(Lower(raw), marker, 0);
    assert r >= 0 ==> InfixAt(marker, Lower(raw), r);
    r
  }

  /**
   * `raw.find(":", marker) + 1`: the index just past the first ':' at or after the
   * marker, or 0 when no ':' follows it.
   */
  function CaptureStart(raw: string, marker: nat): (s: nat)
    ensures s <= |raw|
    ensures s == 0 <==> forall i :: marker <= i ==> !InfixAt(":", raw, i)
    ensures s > 0 ==> marker < s && InfixAt(":", raw, s - 1)
    ensures s > 0 ==> forall i :: marker <= i < s - 1 ==> !InfixAt(":", raw, i)
  {
    Find(raw, ":", marker) + 1
  }

  /**
   * The text of `raw[start..end]` from its first non-whitespace character to just past its
   * last one, cut to `limit` characters.
   */
  function TrimmedSpan(raw: string, start: nat, end: nat, limit: nat): string
    requires start <= end <= |raw|
  {
    var f := SkipSpace(raw, start, end);
    var b := TrimEnd(raw, f, end);
    raw[f..if b - f <= limit then b else f + limit]
  }

  /**
   * `raw[start:end].strip()[:limit]`: the trimmed text of a span, cut to `limit`
   * characters. It does not start with whitespace, and is empty exactly when the span is
   * all whitespace.
   */
  function Capture(raw: string, start: nat, end: nat, limit: nat): (r: string)
    requires start <= end <= |raw|
    ensures r == TrimmedSpan(raw, start, end, limit)
    ensures |r| <= limit
    ensures r == [] || !IsSpace(r[0])
    ensures limit > 0 ==> (r == [] <==> forall i :: start <= i < end ==> IsSpace(raw[i]))
  {
    CaptureIsTrimmedSpan(raw, start, end, limit);
    CaptureEmptyIff(raw, start, end, limit);
    Take(Strip(raw[start..end]), limit)
  }

  lemma CaptureIsTrimmedSpan(raw: string, start: nat, end: nat, limit: nat)
    requires start <= end <= |raw|
    ensures Take(Strip(raw[start..end]), limit) == TrimmedSpan(raw, start, end, limit)
  {
    var f := SkipSpace(raw, start, end);
    var b := TrimEnd(raw, f, end);
    assert Strip(raw[start..end]) == raw[f..b] by {
      StripSpan(raw, start, end);
    }
    TakeSlice(raw, f, b, limit);
  }

  lemma CaptureEmptyIff(raw: string, start: nat, end: nat, limit: nat)
    requires start <= end <= |raw|
    ensures limit > 0 ==>
      (Take(Strip(raw[start..end]), limit) == [] <==> forall i :: start <= i < end ==> IsSpace(raw[i]))
  {
    var t := raw[start..end];
    assert forall i :: start <= i < end ==> raw[i] == t[i - start];
  }

  /**
   * Where the name capture stops: at the bullet marker when it lies after the capture
   * start, else at the description marker when that does, else at the end of the blob.
   */
  function NameEnd(raw: string, start: nat, bi: int, di: int): (e: nat)
    requires start <= |raw| && bi <= |raw| && di <= |raw|
    ensures start <= e <= |raw|
    ensures bi > start ==> e == bi
    ensures bi <= start && di > start ==> e == di
    ensures bi <= start && di <= start ==> e == |raw|
  {
    if bi > start then bi else if di > start then di else |raw|
  }

  /** The text after `item_name`'s ':' up to the next marker; empty when there is no `item_name`. */
  function NameCapture(raw: string): (r: string)
    ensures |r| <= NameLimit
    ensures !IsInfix(NameMarker, Lower(raw)) ==> r == []
    ensures r == [] || !IsSpace(r[0])
    ensures IsInfix(NameMarker, Lower(raw)) ==>
      var start := CaptureStart(raw, MarkerIndex(raw, NameMarker));
      var end := NameEnd(raw, start, MarkerIndex(raw, BulletMarker), MarkerIndex(raw, DescMarker));
      r == TrimmedSpan(raw, start, end, NameLimit)
  {
    var ni := MarkerIndex(raw, NameMarker);
    if ni < 0 then []
    else
      var start := CaptureStart(raw, ni);
      Capture(raw, start, NameEnd(raw, start, MarkerIndex(raw, BulletMarker), MarkerIndex(raw, DescMarker)), NameLimit)
  }

  /** The text after `bullet_point`'s ':' up to the description marker when that lies after it. */
  function BulletsCapture(raw: string): (r: string)
    ensures |r| <= BulletsLimit
    ensures !IsInfix(BulletMarker, Lower(raw)) ==> r == []
    ensures r == [] || !IsSpace(r[0])
    ensures IsInfix(BulletMarker, Lower(raw)) ==>
      var start := CaptureStart(raw, MarkerIndex(raw, BulletMarker));
      var di := MarkerIndex(raw, DescMarker);
      var end := if di > start then di else |raw|;
      r == TrimmedSpan(raw, start, end, BulletsLimit)
  {
    var bi := MarkerIndex(raw, BulletMarker);
    if bi < 0 then []
    else
      var start := CaptureStart(raw, bi);
      var di := MarkerIndex(raw, DescMarker);
      Capture(raw, start, if di > start then di else |raw|, BulletsLimit)
  }

  /** The text after `product_description`'s ':' to the end of the blob. */
  function DescCapture(raw: string): (r: string)
    ensures |r| <= DescLimit
    ensures !IsInfix(DescMarker, Lower(raw)) ==> r == []
    ensures r == [] || !IsSpace(r[0])
    ensures IsInfix(DescMarker, Lower(raw)) ==>
      var start := CaptureStart(raw, MarkerIndex(raw, DescMarker));
      r == TrimmedSpan(raw, start, |raw|, DescLimit)
  {
    var di := MarkerIndex(raw, DescMarker);
    if di < 0 then []
    else Capture(raw, CaptureStart(raw, di), |raw|, DescLimit)
  }

  /**
   * `raw[:80].strip().replace("\n", " ")`: the name used when no name was captured, which
   * is the trimmed text of the first 80 characters with each newline turned into a space.
   */
  function FallbackName(raw: string): (r: string)
    ensures |r| <= FallbackLimit
    ensures forall i :: 0 <= i < |r| ==> r[i] != '\n'
    ensures r == [] <==> forall i :: 0 <= i < |raw| && i < FallbackLimit ==> IsSpace(raw[i])
    ensures r == ReplaceChar(TrimmedSpan(raw, 0, |Take(raw, FallbackLimit)|, FallbackLimit), '\n', ' ')
  {
    var head := Take(raw, FallbackLimit);
    FallbackHead(raw, head);
    ReplaceChar(Strip(head), '\n', ' ')
  }

  lemma FallbackHead(raw: string, head: string)
    requires head == Take(raw, FallbackLimit)
    ensures Strip(head) == [] <==> forall i :: 0 <= i < |raw| && i < FallbackLimit ==> IsSpace(raw[i])
    ensures Strip(head) == TrimmedSpan(raw, 0, |head|, FallbackLimit)
  {
    assert forall i :: 0 <= i < |head| ==> head[i] == raw[i];
    assert head == raw[0..|head|];
    StripSpan(raw, 0, |head|);
  }

  /**
   * `_fast_parse_catalog(raw)`: name, bullets and description of a catalog blob, each
   * bounded in length; a field whose marker is absent is empty, and an empty name capture
   * falls back to the start of the blob.
   */
  function FastParseCatalog(raw: string): (r: CatalogFields)
    ensures raw == [] ==> r == CatalogFields([], [], [])
    ensures |r.name| <= NameLimit && |r.bullets| <= BulletsLimit && |r.desc| <= DescLimit
    ensures r.bullets == BulletsCapture(raw) && r.desc == DescCapture(raw)
    ensures !IsInfix(BulletMarker, Lower(raw)) ==> r.bullets == []
    ensures !IsInfix(DescMarker, Lower(raw)) ==> r.desc == []
    ensures NameCapture(raw) != [] ==> r.name == NameCapture(raw)
    ensures NameCapture(raw) == [] ==> r.name == FallbackName(raw)
    ensures r.name == [] <==>
      NameCapture(raw) == [] && forall i :: 0 <= i < |raw| && i < FallbackLimit ==> IsSpace(raw[i])
  {
    if raw == [] then CatalogFields([], [], [])
    else
      var name := NameCapture(raw);
      CatalogFields(if name == [] then FallbackName(raw) else name, BulletsCapture(raw), DescCapture(raw))
  }

  // ---------------------------------------------------------------------------
  // Row to product
  // ---------------------------------------------------------------------------

  /** One CSV row: column name to cell text; a missing column is an absent key. */
  type Row = map<string, string>

  /** Python's `float(text)` and `int(text)`, each None where Python raises `ValueError`. */
  datatype Parsers = Parsers(toFloat: string -> Option<real>, toInt: string -> Option<int>)

  /** `row.get(key, default)`. */
  function Cell(row: Row, key: string, default: string): string
  {
    if key in row then row[key] else default
  }

  /** The price column parsed as a float; missing or unparsable gives 0.0. */
  function RowPrice(row: Row, parsers: Parsers): (r: real)
    ensures "price" !in row ==> r == 0.0
    ensures "price" in row && parsers.toFloat(row["price"]).None? ==> r == 0.0
    ensures "price" in row && parsers.toFloat(row["price"]).Some? ==> r == parsers.toFloat(row["price"]).value
  {
    if "price" in row then parsers.toFloat(row["price"]).GetOr(0.0) else 0.0
  }

  /** `"Product " + str(i)`: the display name of a row whose name came out empty. */
  function PlaceholderName(i: nat): string
  {
    "Product " + NatToString(i)
  }

  /**
   * The `Product(...)` built for row `i`. None stands for the `ValueError` that
   * `int(row["sample_id"])` raises on a malformed id, which aborts the whole ingestion.
   */
  function BuildProduct(row: Row, i: nat, parsers: Parsers): (r: Option<Product>)
    ensures r.None? <==> "sample_id" in row && parsers.toInt(row["sample_id"]).None?
    ensures r.Some? ==>
      var f := FastParseCatalog(Cell(row, "catalog_content", ""));
      && r.value.category == Classify(Lower(f.name))
      && (f.name == [] ==> r.value.name == PlaceholderName(i) && r.value.category == OtherLabel)
      && (f.name != [] ==> r.value.name == f.name)
      && r.value.price == RowPrice(row, parsers)
      && ("sample_id" !in row ==> r.value.sampleId == i)
      && ("sample_id" in row ==> r.value.sampleId == parsers.toInt(row["sample_id"]).value)
      && r.value.unit == Cell(row, "unit", "") && r.value.value == Cell(row, "value", "")
      && r.value.imageLink == Cell(row, "image_link", "")
      && r.value.bulletPoints == f.bullets && r.value.description == f.desc
  {
    var f := FastParseCatalog(Cell(row, "catalog_content", ""));
    var id := if "sample_id" in row then parsers.toInt(row["sample_id"]) else Some(i);
    if id.None? then None
    else
      ClassifyEmpty();
      Some(Product(
        sampleId := id.value,
        name := if f.name == [] then PlaceholderName(i) else f.name,
        price := RowPrice(row, parsers),
        category := Classify(Lower(f.name)),
        unit := Cell(row, "unit", ""),
        value := Cell(row, "value", ""),
        imageLink := Cell(row, "image_link", ""),
        bulletPoints := f.bullets,
        description := f.desc))
  }

  // ---------------------------------------------------------------------------
  // Reservoir sampling (algorithm R)
  // ---------------------------------------------------------------------------

  function Min(a: nat, b: nat): nat
  {
    if a <= b then a else b
  }

  /**
   * The values `random.randint(0, i)` returned, one per row `i >= MaxProducts`, in row order:
   * `draws[t]` belongs to row `t + MaxProducts`, and enough are given for `n` rows.
   */
  ghost predicate DrawsCover(draws: seq<int>, n: nat) {
    && n <= MaxProducts + |draws|
    && forall t :: 0 <= t < |draws| ==> 0 <= draws[t] <= t + MaxProducts
  }

  /**
   * One iteration of the sampling loop for row `i` carrying product `p`: append while the
   * reservoir has room, otherwise overwrite slot `j` when the row's draw `j` is below the
   * capacity and leave the reservoir unchanged when it is not.
   */
  function ReservoirStep(res: seq<Product>, i: nat, p: Product, draws: seq<int>): (r: seq<Product>)
    requires |res| == Min(i, MaxProducts)
    requires DrawsCover(draws, i + 1)
    ensures |r| == Min(i + 1, MaxProducts)
    ensures i < MaxProducts ==> r == res + [p]
    ensures i >= MaxProducts && draws[i - MaxProducts] < MaxProducts ==> r == res[draws[i - MaxProducts] := p]
    ensures i >= MaxProducts && draws[i - MaxProducts] >= MaxProducts ==> r == res
  {
    if |res| < MaxProducts then res + [p]
    else
      var j := draws[i - MaxProducts];
      if j < MaxProducts then res[j := p] else res
  }

  /**
   * The row whose product sits in slot `s` after `n` rows: the latest row that wrote the
   * slot, which is either row `s` itself or a later row whose draw was `s`.
   */
  ghost function LastWriter(draws: seq<int>, n: nat, s: nat): (t: nat)
    requires s < Min(n, MaxProducts)
    requires n <= MaxProducts + |draws|
    ensures s <= t < n
    ensures t == s || (t >= MaxProducts && draws[t - MaxProducts] == s)
    ensures forall v :: 0 <= v < |draws| && t < v + MaxProducts < n ==> draws[v] != s
  {
    var t := n - 1;
    if t == s || (t >= MaxProducts && draws[t - MaxProducts] == s) then t
    else LastWriter(draws, n - 1, s)
  }

  /** Until the reservoir is full, every slot holds the row of the same index. */
  lemma LastWriterBelowCapacity(draws: seq<int>, n: nat, s: nat)
    requires n <= MaxProducts && s < n
    ensures LastWriter(draws, n, s) == s
  {
  }

  /** `Product(...)` for every row, in row order; None where the row's `sample_id` does not parse. */
  function BuildAll(rows: seq<Row>, parsers: Parsers): (built: seq<Option<Product>>)
    ensures |built| == |rows|
    ensures forall k :: 0 <= k < |rows| ==> built[k] == BuildProduct(rows[k], k, parsers)
  {
    seq(|rows|, k requires 0 <= k < |rows| => BuildProduct(rows[k], k, parsers))
  }

  /**
   * The sampling loop of `load_and_cache` over the first `n` rows, where `built[k]` is the
   * product row `k` builds. It stops with the index of the first row whose id does not
   * parse; otherwise slot `s` of the reservoir holds the product of the last row that wrote it.
   */
  function IngestRows(built: seq<Option<Product>>, n: nat, draws: seq<int>): (r: Result<seq<Product>, nat>)
    requires n <= |built|
    requires DrawsCover(draws, n)
    ensures r.Success? <==> forall k :: 0 <= k < n ==> built[k].Some?
    ensures r.Failure? ==> r.error < n && built[r.error].None?
    ensures r.Failure? ==> forall k :: 0 <= k < r.error ==> built[k].Some?
    ensures r.Success? ==> |r.value| == Min(n, MaxProducts)
    ensures r.Success? ==> forall s :: 0 <= s < |r.value| ==> r.value[s] == built[LastWriter(draws, n, s)].value
    decreases n
  {
    if n == 0 then Success([])
    else
      match IngestRows(built, n - 1, draws)
      case Failure(e) => Failure(e)
      case Success(res) =>
        match built[n - 1]
        case None => Failure(n - 1)
        case Some(p) =>
          var r := ReservoirStep(res, n - 1, p, draws);
          ReservoirStepKeepsWriters(built, n, draws, res, r);
          Success(r)
  }

  /** One sampling step keeps every slot on its last writer. */
  lemma ReservoirStepKeepsWriters(built: seq<Option<Product>>, n: nat, draws: seq<int>, res: seq<Product>, r: seq<Product>)
    requires 0 < n <= |built| && DrawsCover(draws, n)
    requires forall k :: 0 <= k < n ==> built[k].Some?
    requires |res| == Min(n - 1, MaxProducts)
    requires forall s :: 0 <= s < |res| ==> res[s] == built[LastWriter(draws, n - 1, s)].value
    requires r == ReservoirStep(res, n - 1, built[n - 1].value, draws)
    ensures forall s :: 0 <= s < |r| ==> r[s] == built[LastWriter(draws, n, s)].value
  {
    forall s | 0 <= s < |r| ensures r[s] == built[LastWriter(draws, n, s)].value {
      var t := n - 1;
      if t == s || (t >= MaxProducts && draws[t - MaxProducts] == s) {
        assert LastWriter(draws, n, s) == t;
        assert r[s] == built[t].value;
      } else {
        assert LastWriter(draws, n, s) == LastWriter(draws, n - 1, s);
        assert s < |res| && r[s] == res[s];
      }
    }
  }

  /** With at most `MaxProducts` rows, the reservoir is every row's product, in row order. */
  lemma SmallSourceKeptInOrder(built: seq<Option<Product>>, draws: seq<int>)
    requires |built| <= MaxProducts && DrawsCover(draws, |built|)
    requires IngestRows(built, |built|, draws).Success?
    ensures var res := IngestRows(built, |built|, draws).value;
      |res| == |built| && forall s :: 0 <= s < |res| ==> res[s] == built[s].value
  {
    var res := IngestRows(built, |built|, draws).value;
    forall s | 0 <= s < |res| ensures res[s] == built[s].value {
      LastWriterBelowCapacity(draws, |built|, s);
    }
  }

  // ---------------------------------------------------------------------------
  // Initial market state
  // ---------------------------------------------------------------------------

  /** The price the simulation starts from: the product's price, or 10.0 when it has none. */
  function BasePrice(p: Product): (r: real)
    ensures r > 0.0
    ensures p.price > 0.0 ==> r == p.price
  {
    if p.price > 0.0 then p.price else 10.0
  }

  /**
   * The five values the generator seeded with the product id returns to
   * `generate_market_state`, in call order: the competitor spread `uniform(-0.20, 0.20)`,
   * the inventory `randint(5, 500)`, the engagement `uniform(0.1, 1.0)`, the seasonal factor
   * `uniform(0.5, 2.0)` and the elasticity `uniform(-3.0, -0.5)`.
   */
  datatype MarketDraws = MarketDraws(spread: real, inventory: int, engagement: real, seasonal: real, elasticity: real)

  /** The draws lie in the ranges the generator is asked for. */
  predicate MarketDrawsInRange(d: MarketDraws) {
    && -0.20 <= d.spread <= 0.20
    && 5 <= d.inventory <= 500
    && 0.1 <= d.engagement <= 1.0
    && 0.5 <= d.seasonal <= 2.0
    && -3.0 <= d.elasticity <= -0.5
  }

  /** `generate_market_state(product)`: a market around the product's base price. */
  function GenerateMarketState(p: Product, d: MarketDraws): (m: MarketState)
    ensures m.productId == p.sampleId
    ensures m.currentPrice == BasePrice(p) && m.currentPrice > 0.0
    ensures m.inventoryLevel == d.inventory
  {
    var base := BasePrice(p);
    MarketState(
      productId := p.sampleId,
      currentPrice := base,
      competitorPrice := Numeric.Round(base * (1.0 + d.spread), 2),
      inventoryLevel := d.inventory,
      userEngagement := Numeric.Round(d.engagement, 2),
      seasonalFactor := Numeric.Round(d.seasonal, 2),
      demandElasticity := Numeric.Round(d.elasticity, 2))
  }

  /** Draws inside the generator's ranges give a market inside the same ranges. */
  lemma GeneratedMarketInRange(p: Product, d: MarketDraws)
    requires MarketDrawsInRange(d)
    ensures var m := GenerateMarketState(p, d);
      && 5 <= m.inventoryLevel <= 500
      && 0.1 <= m.userEngagement <= 1.0
      && 0.5 <= m.seasonalFactor <= 2.0
      && -3.0 <= m.demandElasticity <= -0.5
      && m.competitorPrice >= 0.0
  {
    var m := GenerateMarketState(p, d);
    assert 0.1 <= m.userEngagement <= 1.0 by {
      Numeric.RoundCentsBetween(10, 100, d.engagement);
    }
    assert 0.5 <= m.seasonalFactor <= 2.0 by {
      Numeric.RoundCentsBetween(50, 200, d.seasonal);
    }
    assert -3.0 <= m.demandElasticity <= -0.5 by {
      Numeric.RoundCentsBetween(-300, -50, d.elasticity);
    }
    CompetitorNotNegative(p, d);
  }

  /** A spread of at least -20% keeps the competitor price at or above zero. */
  lemma CompetitorNotNegative(p: Product, d: MarketDraws)
    requires d.spread >= -0.20
    ensures GenerateMarketState(p, d).competitorPrice >= 0.0
  {
    Numeric.ProductNonNegative(BasePrice(p), 1.0 + d.spread);
    Numeric.RoundNotNegative(BasePrice(p) * (1.0 + d.spread), 2);
  }

  // ---------------------------------------------------------------------------
  // load_and_cache
  // ---------------------------------------------------------------------------

  /**
   * `load_and_cache` without the cache: sample the rows, then run the statistics pass.
   * A malformed `sample_id` ends the load with the index of its row.
   */
  function LoadCatalog(rows: seq<Row>, draws: seq<int>, parsers: Parsers): (r: Result<CatalogStats.PrecomputedData, nat>)
    requires DrawsCover(draws, |rows|)
    ensures r.Failure? <==> exists k :: 0 <= k < |rows| && BuildProduct(rows[k], k, parsers).None?
    ensures r.Success? ==> r.value.totalInCsv == |rows|
    ensures r.Success? ==> r.value.totalProducts == |r.value.products| == Min(|rows|, MaxProducts)
  {
    match IngestRows(BuildAll(rows, parsers), |rows|, draws)
    case Failure(e) => Failure(e)
    case Success(res) => Success(CatalogStats.Precompute(res, |rows|))
  }

  /**
   * A failed load reports a row whose id does not parse, and a load of no more rows than
   * the reservoir holds keeps every row's product, in row order.
   */
  lemma LoadCatalogRows(rows: seq<Row>, draws: seq<int>, parsers: Parsers)
    requires DrawsCover(draws, |rows|)
    ensures var r := LoadCatalog(rows, draws, parsers);
      && (r.Failure? ==> r.error < |rows| && BuildProduct(rows[r.error], r.error, parsers).None?)
      && (r.Success? && |rows| <= MaxProducts ==>
            forall s :: 0 <= s < |rows| ==> r.value.products[s] == BuildProduct(rows[s], s, parsers).value)
  {
    var built := BuildAll(rows, parsers);
    if IngestRows(built, |rows|, draws).Success? && |rows| <= MaxProducts {
      SmallSourceKeptInOrder(built, draws);
    }
  }
}

=== FILE: models.dfy ===
/**
 * The value types of the warehouse: catalog products, simulated market states,
 * pricing decisions, simulation results and the application settings, with
 * their derived properties and the settings' dictionary round trip.
 */
module Models {
  import opened Wrappers

  /** One catalog record. Built once per sampled row and never changed afterwards. */
  datatype Product = Product(
    sampleId: int,
    name: string,
    price: real,
    category: string,
    unit: string,
    value: string,
    imageLink: string,
    bulletPoints: string,
    description: string)

  /** The simulated market around one product. Each simulation step builds a new one. */
  datatype MarketState = MarketState(
    productId: int,
    currentPrice: real,
    competitorPrice: real,
    inventoryLevel: int,
    userEngagement: real,
    seasonalFactor: real,
    demandElasticity: real)

  /** One simulation step's decision: the price change, its reward and the reward's parts. */
  datatype PricingAction = PricingAction(
    productId: int,
    productName: string,
    oldPrice: real,
    newPrice: real,
    reward: real,
    profitComponent: real,
    competitiveComponent: real,
    stabilityComponent: real,
    inventoryComponent: real,
    step: int)

  /** The summary of a whole rollout. */
  datatype SimulationResult = SimulationResult(
    productId: int,
    productName: string,
    actions: seq<PricingAction>,
    totalReward: real,
    avgReward: real,
    finalPrice: real,
    initialPrice: real,
    maxPrice: real,
    minPrice: real,
    steps: int)

  /** Reward weights, simulation defaults and display caps. */
  datatype AppSettings = AppSettings(
    alpha: real,
    beta: real,
    gamma: real,
    delta: real,
    defaultSteps: int,
    priceAdjustmentRange: real,
    maxCatalogRows: int,
    theme: string)

  /** The settings a fresh installation starts with. */
  const DefaultSettings := AppSettings(0.40, 0.25, 0.20, 0.15, 30, 0.15, 500, "warehouse_dark")

  /** Names longer than this are shortened for table display. */
  const DisplayWidth: nat := 55

  /**
   * `Product.display_name`: the name itself when it fits in the display width,
   * otherwise its first 52 characters followed by "...".
   */
  function DisplayName(p: Product): (r: string)
    ensures |r| <= DisplayWidth
    ensures r == p.name <==> |p.name| <= DisplayWidth
    ensures |p.name| > DisplayWidth ==>
      |r| == DisplayWidth && r[..DisplayWidth - 3] == p.name[..DisplayWidth - 3] && r[DisplayWidth - 3..] == "..."
  {
    if |p.name| > DisplayWidth then p.name[..DisplayWidth - 3] + "..." else p.name
  }

  /** The relative change from `before` to `after` in percent, 0 when `before` is 0. */
  function PercentChange(before: real, after: real): real
  {
    if before == 0.0 then 0.0 else ((after - before) / before) * 100.0
  }

  /** Sign of the percentage change against a positive starting price. */
  lemma PercentChangeSign(before: real, after: real)
    requires before > 0.0
    ensures PercentChange(before, after) > 0.0 <==> after > before
    ensures PercentChange(before, after) < 0.0 <==> after < before
    ensures PercentChange(before, after) == 0.0 <==> after == before
  {
    var q := (after - before) / before;
    assert after > before ==> q > 0.0;
    assert after < before ==> q < 0.0;
    assert q * before == after - before;
  }

  lemma PercentChangeSignWhenPositive(before: real, after: real)
    ensures before > 0.0 ==>
      && (PercentChange(before, after) > 0.0 <==> after > before)
      && (PercentChange(before, after) < 0.0 <==> after < before)
  {
    if before > 0.0 {
      PercentChangeSign(before, after);
    }
  }

  /** `PricingAction.price_change_pct`. */
  function ActionPriceChangePct(a: PricingAction): (r: real)
    ensures a.oldPrice == 0.0 ==> r == 0.0
    ensures a.oldPrice > 0.0 ==> (r > 0.0 <==> a.newPrice > a.oldPrice)
    ensures a.oldPrice > 0.0 ==> (r < 0.0 <==> a.newPrice < a.oldPrice)
  {
    PercentChangeSignWhenPositive(a.oldPrice, a.newPrice);
    PercentChange(a.oldPrice, a.newPrice)
  }

  /** `SimulationResult.price_change_pct`. */
  function ResultPriceChangePct(s: SimulationResult): (r: real)
    ensures s.initialPrice == 0.0 ==> r == 0.0
    ensures s.initialPrice > 0.0 ==> (r > 0.0 <==> s.finalPrice > s.initialPrice)
    ensures s.initialPrice > 0.0 ==> (r < 0.0 <==> s.finalPrice < s.initialPrice)
  {
    PercentChangeSignWhenPositive(s.initialPrice, s.finalPrice);
    PercentChange(s.initialPrice, s.finalPrice)
  }

  const Up := "▲"
  const Down := "▼"
  const Flat := "━"

  /** `PricingAction.direction`: exactly one of up, down and flat applies. */
  function Direction(a: PricingAction): (r: string)
    ensures r == Up <==> a.newPrice > a.oldPrice
    ensures r == Down <==> a.newPrice < a.oldPrice
    ensures r == Flat <==> a.newPrice == a.oldPrice
  {
    if a.newPrice > a.oldPrice then Up
    else if a.newPrice < a.oldPrice then Down
    else Flat
  }

  /** The arrow shown for a step agrees with the sign of its percentage change. */
  lemma DirectionMatchesChange(a: PricingAction)
    requires a.oldPrice > 0.0
    ensures Direction(a) == Up <==> ActionPriceChangePct(a) > 0.0
    ensures Direction(a) == Down <==> ActionPriceChangePct(a) < 0.0
    ensures Direction(a) == Flat <==> ActionPriceChangePct(a) == 0.0
  {
    PercentChangeSign(a.oldPrice, a.newPrice);
  }

  /** A JSON value as `json.loads` produces it, reduced to the kinds the settings use. */
  datatype JsonValue = JNumber(x: real) | JInt(i: int) | JString(s: string) | JOther

  /** The dataclass field names of `AppSettings`; `from_dict` keeps only these keys. */
  const SettingsFields: set<string> :=
    {"alpha", "beta", "gamma", "delta", "default_steps", "price_adjustment_range",
     "max_catalog_rows", "theme"}

  /** `AppSettings.to_dict`: every field under its own name. */
  function ToDict(s: AppSettings): (d: map<string, JsonValue>)
    ensures d.Keys == SettingsFields
  {
    map["alpha" := JNumber(s.alpha), "beta" := JNumber(s.beta),
        "gamma" := JNumber(s.gamma), "delta" := JNumber(s.delta),
        "default_steps" := JInt(s.defaultSteps),
        "price_adjustment_range" := JNumber(s.priceAdjustmentRange),
        "max_catalog_rows" := JInt(s.maxCatalogRows),
        "theme" := JString(s.theme)]
  }

  /** A float field accepts a JSON float or a JSON int. */
  function RealField(d: map<string, JsonValue>, key: string, default: real): Option<real>
  {
    if key !in d then Some(default)
    else match d[key]
      case JNumber(x) => Some(x)
      case JInt(i) => Some(i as real)
      case _ => None
  }

  function IntField(d: map<string, JsonValue>, key: string, default: int): Option<int>
  {
    if key !in d then Some(default)
    else match d[key]
      case JInt(i) => Some(i)
      case _ => None
  }

  function StringField(d: map<string, JsonValue>, key: string, default: string): Option<string>
  {
    if key !in d then Some(default)
    else match d[key]
      case JString(t) => Some(t)
      case _ => None
  }

  /** Every settings field present in `d` holds a value of the field's JSON kind. */
  predicate WellKinded(d: map<string, JsonValue>)
  {
    && ("alpha" in d ==> d["alpha"].JNumber? || d["alpha"].JInt?)
    && ("beta" in d ==> d["beta"].JNumber? || d["beta"].JInt?)
    && ("gamma" in d ==> d["gamma"].JNumber? || d["gamma"].JInt?)
    && ("delta" in d ==> d["delta"].JNumber? || d["delta"].JInt?)
    && ("default_steps" in d ==> d["default_steps"].JInt?)
    && ("price_adjustment_range" in d ==> d["price_adjustment_range"].JNumber? || d["price_adjustment_range"].JInt?)
    && ("max_catalog_rows" in d ==> d["max_catalog_rows"].JInt?)
    && ("theme" in d ==> d["theme"].JString?)
  }

  /** Field `key` of `s` is `x`: the number stored under `key` in `d`, or `default` when absent. */
  predicate RealFrom(d: map<string, JsonValue>, key: string, default: real, x: real)
  {
    if key in d then d[key] == JNumber(x) || (d[key].JInt? && d[key].i as real == x) else x == default
  }

  predicate IntFrom(d: map<string, JsonValue>, key: string, default: int, x: int)
  {
    if key in d then d[key] == JInt(x) else x == default
  }

  predicate StringFrom(d: map<string, JsonValue>, key: string, default: string, x: string)
  {
    if key in d then d[key] == JString(x) else x == default
  }

  /** Every field of `s` is read from `d` under its own name, or is the default when absent. */
  predicate ReadFrom(d: map<string, JsonValue>, s: AppSettings)
  {
    && RealFrom(d, "alpha", DefaultSettings.alpha, s.alpha)
    && RealFrom(d, "beta", DefaultSettings.beta, s.beta)
    && RealFrom(d, "gamma", DefaultSettings.gamma, s.gamma)
    && RealFrom(d, "delta", DefaultSettings.delta, s.delta)
    && IntFrom(d, "default_steps", DefaultSettings.defaultSteps, s.defaultSteps)
    && RealFrom(d, "price_adjustment_range", DefaultSettings.priceAdjustmentRange, s.priceAdjustmentRange)
    && IntFrom(d, "max_catalog_rows", DefaultSettings.maxCatalogRows, s.maxCatalogRows)
    && StringFrom(d, "theme", DefaultSettings.theme, s.theme)
  }

  /**
   * `AppSettings.from_dict`: takes the known fields from `d`, ignores every other key
   * and falls back to the default for a missing field. A known field holding a value of
   * the wrong JSON kind yields None.
   */
  function FromDict(d: map<string, JsonValue>): (r: Option<AppSettings>)
    ensures r.Some? <==> WellKinded(d)
    ensures r.Some? ==> ReadFrom(d, r.value)
  {
    var alpha := RealField(d, "alpha", DefaultSettings.alpha);
    var beta := RealField(d, "beta", DefaultSettings.beta);
    var gamma := RealField(d, "gamma", DefaultSettings.gamma);
    var delta := RealField(d, "delta", DefaultSettings.delta);
    var steps := IntField(d, "default_steps", DefaultSettings.defaultSteps);
    var adjust := RealField(d, "price_adjustment_range", DefaultSettings.priceAdjustmentRange);
    var rows := IntField(d, "max_catalog_rows", DefaultSettings.maxCatalogRows);
    var theme := StringField(d, "theme", DefaultSettings.theme);
    if alpha.Some? && beta.Some? && gamma.Some? && delta.Some? && steps.Some?
       && adjust.Some? && rows.Some? && theme.Some?
    then Some(AppSettings(alpha.value, beta.value, gamma.value, delta.value, steps.value,
                          adjust.value, rows.value, theme.value))
    else None
  }

  /** At most one settings value is read from a document. */
  lemma ReadFromUnique(d: map<string, JsonValue>, s: AppSettings, t: AppSettings)
    requires ReadFrom(d, s) && ReadFrom(d, t)
    ensures s == t
  {
  }

  /** Serialising settings and reading them back gives the same settings. */
  lemma SettingsRoundTrip(s: AppSettings)
    ensures FromDict(ToDict(s)) == Some(s)
  {
    ReadFromUnique(ToDict(s), FromDict(ToDict(s)).value, s);
  }

  /** Keys that are not settings fields never influence `FromDict`. */
  lemma FromDictIgnoresUnknownKeys(d: map<string, JsonValue>, extra: map<string, JsonValue>)
    requires extra.Keys !! SettingsFields
    ensures FromDict(d + extra) == FromDict(d)
  {
    var e := d + extra;
    assert forall k :: k in SettingsFields ==> (k in e <==> k in d) && (k in d ==> e[k] == d[k]);
    assert WellKinded(e) <==> WellKinded(d);
    if WellKinded(d) {
      assert ReadFrom(e, FromDict(d).value);
      ReadFromUnique(e, FromDict(e).value, FromDict(d).value);
    }
  }

  /** An empty document yields the default settings. */
  lemma FromEmptyDictIsDefault()
    ensures FromDict(map[]) == Some(DefaultSettings)
  {
  }
}

=== FILE: numeric.dfy ===
/**
 * Numeric helpers shared by the statistics pass and the pricing engine:
 * Python's `round(x, d)` on exact reals, `sum`, `min`, `max` and `sorted`.
 */
module Numeric {

  /** 10 to the power `d`, as a real scale factor. */
  function Pow10(d: nat): (r: real)
    ensures r >= 1.0
  {
    if d == 0 then 1.0 else 10.0 * Pow10(d - 1)
  }

  lemma Pow10Two()
    ensures Pow10(2) == 100.0
  {
    assert Pow10(1) == 10.0;
  }

  lemma Pow10Four()
    ensures Pow10(4) == 10000.0
  {
    Pow10Two();
    assert Pow10(3) == 1000.0;
  }

  /** Nearest integer to `y`, ties going to the even neighbour, as Python's `round` does. */
  function RoundHalfEven(y: real): (k: int)
    ensures y - 0.5 <= k as real <= y + 0.5
  {
    var f := y.Floor;
    var frac := y - f as real;
    if frac > 0.5 then f + 1
    else if frac < 0.5 then f
    else if f % 2 == 0 then f else f + 1
  }

  /** The multiple of 1/p nearest to `x`, ties to even. */
  function RoundToUnit(x: real, p: real): real
    requires p >= 1.0
  {
    RoundHalfEven(x * p) as real / p
  }

  /**
   * `round(x, digits)`: the multiple of 10^-digits nearest to `x`, ties to even.
   * The value is computed exactly; binary floating-point representation is not modelled.
   */
  function Round(x: real, digits: nat): real
  {
    RoundToUnit(x, Pow10(digits))
  }

  lemma DivMonotone(a: real, b: real, p: real)
    requires p > 0.0 && a <= b
    ensures a / p <= b / p
  {
  }

  lemma ProductNonNegative(a: real, b: real)
    requires a >= 0.0 && b >= 0.0
    ensures a * b >= 0.0
  {
  }

  lemma MulMonotone(a: real, b: real, p: real)
    requires p > 0.0 && a <= b
    ensures a * p <= b * p
  {
  }

  lemma DivMulCancel(k: real, p: real)
    requires p > 0.0
    ensures (k / p) * p == k
  {
  }

  lemma RoundHalfEvenOfInteger(k: int)
    ensures RoundHalfEven(k as real) == k
  {
  }

  lemma {:induction false} RoundHalfEvenMonotone(x: real, y: real)
    requires x <= y
    ensures RoundHalfEven(x) <= RoundHalfEven(y)
  {
    var fx, fy := x.Floor, y.Floor;
    if fx < fy {
      assert RoundHalfEven(x) <= fx + 1 <= fy <= RoundHalfEven(y);
    } else {
      assert fx == fy;
      assert x - fx as real <= y - fy as real;
    }
  }

  lemma RoundToUnitMonotone(x: real, y: real, p: real)
    requires p >= 1.0 && x <= y
    ensures RoundToUnit(x, p) <= RoundToUnit(y, p)
  {
    MulMonotone(x, y, p);
    RoundHalfEvenMonotone(x * p, y * p);
    DivMonotone(RoundHalfEven(x * p) as real, RoundHalfEven(y * p) as real, p);
  }

  lemma RoundToUnitOnGrid(v: real, p: real)
    requires p >= 1.0 && v * p == (v * p).Floor as real
    ensures RoundToUnit(v, p) == v
  {
    var k := (v * p).Floor;
    RoundHalfEvenOfInteger(k);
    MulDivCancel(v, p);
  }

  lemma FloorOfProduct(v: real, p: real, k: int)
    requires v * p == k as real
    ensures v * p == (v * p).Floor as real
  {
    assert (k as real).Floor == k;
  }

  lemma MulDivCancel(v: real, p: real)
    requires p > 0.0
    ensures (v * p) / p == v
  {
  }

  /** Rounding never reverses the order of two prices. */
  lemma RoundMonotone(x: real, y: real, digits: nat)
    requires x <= y
    ensures Round(x, digits) <= Round(y, digits)
  {
    RoundToUnitMonotone(x, y, Pow10(digits));
  }

  /** A value that already has at most `digits` decimals is left unchanged. */
  lemma RoundOnGrid(k: int, digits: nat)
    ensures Round(k as real / Pow10(digits), digits) == k as real / Pow10(digits)
  {
    var p := Pow10(digits);
    var v := k as real / p;
    DivMulCancel(k as real, p);
    FloorOfProduct(v, p, k);
    RoundToUnitOnGrid(v, p);
  }

  /** Rounding a non-negative value gives a non-negative value. */
  lemma RoundNotNegative(x: real, digits: nat)
    requires x >= 0.0
    ensures Round(x, digits) >= 0.0
  {
    RoundMonotone(0.0, x, digits);
    RoundOnGrid(0, digits);
    assert 0 as real / Pow10(digits) == 0.0;
  }

  /** Rounding twice to the same number of decimals is the same as rounding once. */
  lemma RoundIdempotent(x: real, digits: nat)
    ensures Round(Round(x, digits), digits) == Round(x, digits)
  {
    var p := Pow10(digits);
    var v := Round(x, digits);
    var k := RoundHalfEven(x * p);
    assert v == RoundToUnit(x, p);
    assert v == k as real / p;
    DivMulCancel(k as real, p);
    FloorOfProduct(v, p, k);
    RoundToUnitOnGrid(v, p);
  }

  /** Bounds that are themselves multiples of 10^-digits survive rounding. */
  /** Rounding to cents keeps a value between two whole-cent bounds. */
  lemma RoundCentsBetween(lo: int, hi: int, x: real)
    requires lo as real / 100.0 <= x <= hi as real / 100.0
    ensures lo as real / 100.0 <= Round(x, 2) <= hi as real / 100.0
  {
    Pow10Two();
    RoundBetween(lo, hi, x, 2);
  }

  lemma RoundBetween(lo: int, hi: int, x: real, digits: nat)
    requires lo as real / Pow10(digits) <= x <= hi as real / Pow10(digits)
    ensures lo as real / Pow10(digits) <= Round(x, digits) <= hi as real / Pow10(digits)
  {
    RoundMonotone(lo as real / Pow10(digits), x, digits);
    RoundMonotone(x, hi as real / Pow10(digits), digits);
    RoundOnGrid(lo, digits);
    RoundOnGrid(hi, digits);
  }

  /** `sum(s)`, accumulated left to right. */
  function Sum(s: seq<real>): real
  {
    if |s| == 0 then 0.0 else Sum(s[..|s| - 1]) + s[|s| - 1]
  }

  /** When every element lies in [lo, hi], the sum lies in [|s|·lo, |s|·hi]. */
  lemma {:induction false} SumBounds(s: seq<real>, lo: real, hi: real)
    requires forall i :: 0 <= i < |s| ==> lo <= s[i] <= hi
    ensures |s| as real * lo <= Sum(s) <= |s| as real * hi
  {
    if |s| > 0 {
      SumBounds(s[..|s| - 1], lo, hi);
    }
  }

  /** The mean of a non-empty sequence lies between any common lower and upper bound. */
  lemma MeanBounds(s: seq<real>, lo: real, hi: real)
    requires |s| > 0
    requires forall i :: 0 <= i < |s| ==> lo <= s[i] <= hi
    ensures lo <= Sum(s) / |s| as real <= hi
  {
    SumBounds(s, lo, hi);
    var n := |s| as real;
    assert (n * lo) / n == lo && (n * hi) / n == hi;
  }

  /** `max(s)`. */
  function MaxOf(s: seq<real>): (r: real)
    requires |s| > 0
    ensures r in s
    ensures forall i :: 0 <= i < |s| ==> s[i] <= r
  {
    if |s| == 1 then s[0]
    else
      var m := MaxOf(s[..|s| - 1]);
      if s[|s| - 1] > m then s[|s| - 1] else m
  }

  /** `min(s)`. */
  function MinOf(s: seq<real>): (r: real)
    requires |s| > 0
    ensures r in s
    ensures forall i :: 0 <= i < |s| ==> r <= s[i]
  {
    if |s| == 1 then s[0]
    else
      var m := MinOf(s[..|s| - 1]);
      if s[|s| - 1] < m then s[|s| - 1] else m
  }

  /** A value of `s` that is at most every element is the minimum. */
  lemma MinOfUnique(s: seq<real>, m: real)
    requires m in s && forall i :: 0 <= i < |s| ==> m <= s[i]
    ensures MinOf(s) == m
  {
    var i :| 0 <= i < |s| && s[i] == m;
    var j :| 0 <= j < |s| && s[j] == MinOf(s);
  }

  /** A value of `s` that is at least every element is the maximum. */
  lemma MaxOfUnique(s: seq<real>, m: real)
    requires m in s && forall i :: 0 <= i < |s| ==> s[i] <= m
    ensures MaxOf(s) == m
  {
    var i :| 0 <= i < |s| && s[i] == m;
    var j :| 0 <= j < |s| && s[j] == MaxOf(s);
  }

  /** Appending `x` lowers the minimum to `x` exactly when `x` is below it. */
  lemma MinOfAppend(s: seq<real>, x: real)
    ensures |s| == 0 ==> MinOf(s + [x]) == x
    ensures |s| > 0 ==> MinOf(s + [x]) == if x < MinOf(s) then x else MinOf(s)
  {
    var t := s + [x];
    assert t[..|t| - 1] == s;
  }

  /** Appending `x` raises the maximum to `x` exactly when `x` is above it. */
  lemma MaxOfAppend(s: seq<real>, x: real)
    ensures |s| == 0 ==> MaxOf(s + [x]) == x
    ensures |s| > 0 ==> MaxOf(s + [x]) == if x > MaxOf(s) then x else MaxOf(s)
  {
    var t := s + [x];
    assert t[..|t| - 1] == s;
  }

  lemma SumAppend(s: seq<real>, x: real)
    ensures Sum(s + [x]) == Sum(s) + x
  {
    assert (s + [x])[..|s|] == s;
  }

  ghost predicate Ascending(s: seq<real>) {
    forall i, j :: 0 <= i < j < |s| ==> s[i] <= s[j]
  }

  /** Inserts `x` into an ascending sequence, keeping it ascending. */
  function Insert(x: real, s: seq<real>): (r: seq<real>)
    requires Ascending(s)
    ensures Ascending(r)
    ensures multiset(r) == multiset(s) + multiset{x}
    ensures |r| == |s| + 1
  {
    if |s| == 0 || x <= s[0] then [x] + s
    else
      var t := Insert(x, s[1..]);
      InsertAfterHead(x, s, t);
      [s[0]] + t
  }

  lemma InsertAfterHead(x: real, s: seq<real>, t: seq<real>)
    requires |s| > 0 && s[0] < x && Ascending(s)
    requires Ascending(t) && multiset(t) == multiset(s[1..]) + multiset{x}
    ensures Ascending([s[0]] + t)
    ensures multiset([s[0]] + t) == multiset(s) + multiset{x}
  {
    assert s == [s[0]] + s[1..];
    forall j | 0 <= j < |t| ensures s[0] <= t[j] {
      assert t[j] in multiset(t);
      if t[j] != x {
        assert t[j] in multiset(s[1..]);
        var i :| 0 <= i < |s[1..]| && s[1..][i] == t[j];
        assert s[i + 1] == t[j];
      }
    }
  }

  /** `sorted(s)`: an ascending permutation of `s`. */
  function SortAscending(s: seq<real>): (r: seq<real>)
    ensures Ascending(r)
    ensures multiset(r) == multiset(s)
    ensures |r| == |s|
  {
    if |s| == 0 then []
    else
      assert s == [s[0]] + s[1..];
      Insert(s[0], SortAscending(s[1..]))
  }

  /** In an ascending permutation of `s` the first element is the minimum and the last the maximum. */
  lemma SortedEnds(s: seq<real>, r: seq<real>)
    requires |s| > 0 && Ascending(r) && multiset(r) == multiset(s)
    ensures r[0] in s && r[|r| - 1] in s
    ensures forall i :: 0 <= i < |s| ==> r[0] <= s[i] <= r[|r| - 1]
  {
    assert |r| == |multiset(r)| == |s|;
    assert r[0] in multiset(r) && r[|r| - 1] in multiset(r);
    forall i | 0 <= i < |s| ensures r[0] <= s[i] <= r[|r| - 1] {
      assert s[i] in multiset(s);
      var j :| 0 <= j < |r| && r[j] == s[i];
    }
  }

  /** How many elements of `s` lie strictly below `x`. */
  function CountBelow(s: seq<real>, x: real): nat
  {
    if |s| == 0 then 0 else (if s[0] < x then 1 else 0) + CountBelow(s[1..], x)
  }

  /** How many elements of `s` are at most `x`. */
  function CountAtMost(s: seq<real>, x: real): nat
  {
    if |s| == 0 then 0 else (if s[0] <= x then 1 else 0) + CountAtMost(s[1..], x)
  }

  /**
   * `x` is the element of rank `k` of `s`: fewer than `k + 1` elements lie below it and more
   * than `k` are at most it, so `x` sits at index `k` of `sorted(s)`.
   */
  ghost predicate HasRank(s: seq<real>, x: real, k: nat) {
    CountBelow(s, x) <= k < CountAtMost(s, x)
  }

  /** Inserting `x` adds one to the counts it falls into and leaves the others alone. */
  lemma {:induction false} InsertCounts(x: real, s: seq<real>, y: real)
    requires Ascending(s)
    ensures CountBelow(Insert(x, s), y) == CountBelow(s, y) + (if x < y then 1 else 0)
    ensures CountAtMost(Insert(x, s), y) == CountAtMost(s, y) + (if x <= y then 1 else 0)
  {
    if |s| == 0 || x <= s[0] {
      assert Insert(x, s) == [x] + s;
      assert ([x] + s)[1..] == s;
    } else {
      var t := Insert(x, s[1..]);
      assert Insert(x, s) == [s[0]] + t;
      assert ([s[0]] + t)[1..] == t;
      InsertCounts(x, s[1..], y);
    }
  }

  /** Sorting keeps every count. */
  lemma {:induction false} SortCounts(s: seq<real>, y: real)
    ensures CountBelow(SortAscending(s), y) == CountBelow(s, y)
    ensures CountAtMost(SortAscending(s), y) == CountAtMost(s, y)
  {
    if |s| > 0 {
      SortCounts(s[1..], y);
      InsertCounts(s[0], SortAscending(s[1..]), y);
    }
  }

  /** When every element from index `k` on is at least `x`, at most `k` elements lie below `x`. */
  lemma {:induction false} CountBelowBound(s: seq<real>, x: real, k: nat)
    requires k <= |s|
    requires forall i :: k <= i < |s| ==> x <= s[i]
    ensures CountBelow(s, x) <= k
  {
    if |s| > 0 {
      CountBelowBound(s[1..], x, if k > 0 then k - 1 else 0);
    }
  }

  /** When every element before index `k` is at most `x`, at least `k` elements are at most `x`. */
  lemma {:induction false} CountAtMostBound(s: seq<real>, x: real, k: nat)
    requires k <= |s|
    requires forall i :: 0 <= i < k ==> s[i] <= x
    ensures CountAtMost(s, x) >= k
  {
    if |s| > 0 && k > 0 {
      CountAtMostBound(s[1..], x, k - 1);
    }
  }

  /** The element at index `k` of the ascending order of `s` has rank `k` in `s`. */
  lemma SortedElementHasRank(s: seq<real>, k: nat)
    requires k < |s|
    ensures HasRank(s, SortAscending(s)[k], k)
  {
    var t := SortAscending(s);
    assert forall i :: k <= i < |t| ==> t[k] <= t[i] by {
      forall i | k <= i < |t| ensures t[k] <= t[i] {
        if k < i {
          assert t[k] <= t[i];
        }
      }
    }
    assert forall i :: 0 <= i < k + 1 ==> t[i] <= t[k] by {
      forall i | 0 <= i < k + 1 ensures t[i] <= t[k] {
        if i < k {
          assert t[i] <= t[k];
        }
      }
    }
    CountBelowBound(t, t[k], k);
    CountAtMostBound(t, t[k], k + 1);
    SortCounts(s, t[k]);
  }

  /** Every element at most `x` is below any `y` above `x`. */
  lemma {:induction false} CountsMonotone(s: seq<real>, x: real, y: real)
    requires x < y
    ensures CountAtMost(s, x) <= CountBelow(s, y)
  {
    if |s| > 0 {
      CountsMonotone(s[1..], x, y);
    }
  }

  /** At most one value has a given rank. */
  lemma RankUnique(s: seq<real>, x: real, y: real, k: nat)
    requires x < y
    ensures !(HasRank(s, x, k) && HasRank(s, y, k))
  {
    CountsMonotone(s, x, y);
  }
}

=== FILE: pricing_engine.dfy ===
/**
 * The dynamic pricing engine: the multi-part reward, the candidate-price search,
 * one simulation step with its market drift, and a whole simulation run.
 */
module PricingEngine {
  import opened Wrappers
  import opened Models
  import Numeric
  import Text

  /**
   * An engine: its settings, and `x ** y` for a positive base, which the demand curve
   * raises the price ratio to. The power is a parameter because real exponentiation is
   * not part of this model.
   */
  datatype Engine = Engine(settings: AppSettings, power: (real, real) -> real)

  /** The estimated cost is this fraction of the list price. */
  const CostRatio := 0.60

  /** Demand at the reference price before seasonality and engagement. */
  const BaseDemand := 100.0

  /** Stock levels outside [LowStock, OverStock] are penalised. */
  const LowStock := 20
  const OverStock := 400

  /** `a / b`, named so the demand curve applies the power to a single term. */
  function Ratio(a: real, b: real): real
    requires b != 0.0
  {
    a / b
  }

  function MaxReal(a: real, b: real): (r: real)
    ensures r >= a && r >= b && (r == a || r == b)
  {
    if a >= b then a else b
  }

  function MinReal(a: real, b: real): (r: real)
    ensures r <= a && r <= b && (r == a || r == b)
  {
    if a <= b then a else b
  }

  function MaxInt(a: int, b: int): (r: int)
    ensures r >= a && r >= b && (r == a || r == b)
  {
    if a >= b then a else b
  }

  function Abs(x: real): (r: real)
    ensures r >= 0.0 && (r == x || r == -x)
  {
    if x >= 0.0 then x else -x
  }

  /** `max(lo, min(hi, x))`. */
  function Clamp(x: real, lo: real, hi: real): (r: real)
    requires lo <= hi
    ensures lo <= r <= hi
    ensures lo <= x <= hi ==> r == x
  {
    MaxReal(lo, MinReal(hi, x))
  }

  // ---------------------------------------------------------------------------
  // Reward components
  // ---------------------------------------------------------------------------

  /** `_estimate_cost`: 60% of the list price, so below any positive price. */
  function EstimateCost(price: real): (r: real)
    ensures price >= 0.0 ==> 0.0 <= r <= price
    ensures price > 0.0 ==> 0.0 < r < price
  {
    price * CostRatio
  }

  /**
   * `_demand_function`: the base demand scaled by `(price / base) ** elasticity`,
   * seasonality and engagement, floored at zero; zero when either price is not positive.
   */
  function Demand(e: Engine, price: real, basePrice: real, elasticity: real, seasonal: real, engagement: real): (r: real)
    ensures r >= 0.0
    ensures basePrice <= 0.0 || price <= 0.0 ==> r == 0.0
  {
    if basePrice <= 0.0 || price <= 0.0 then 0.0
    else MaxReal(0.0, BaseDemand * e.power(Ratio(price, basePrice), elasticity) * seasonal * engagement)
  }

  /**
   * At the reference price the ratio is 1, so with `1 ** y == 1` the demand is the base
   * demand scaled by seasonality and engagement.
   */
  lemma DemandAtReferencePrice(e: Engine, base: real, elasticity: real, seasonal: real, engagement: real)
    requires base > 0.0 && seasonal >= 0.0 && engagement >= 0.0
    requires e.power(1.0, elasticity) == 1.0
    ensures Demand(e, base, base, elasticity, seasonal, engagement) == BaseDemand * seasonal * engagement
  {
    assert Ratio(base, base) == 1.0;
    assert seasonal * engagement >= 0.0;
  }

  /** `x ** 2`. */
  function Square(x: real): real
  {
    x * x
  }

  lemma ProductPositive(a: real, b: real, p: real)
    requires a > 0.0 && b > 0.0 && p == a * b
    ensures p > 0.0
  {
  }

  /** Selling at or below cost to a non-negative demand, scaled by a positive norm, earns nothing. */
  lemma LossIsNotProfit(margin: real, demand: real, norm: real, q: real)
    requires demand >= 0.0 && norm > 0.0 && q == margin * demand / norm
    ensures margin <= 0.0 ==> q <= 0.0
  {
    if margin < 0.0 && demand > 0.0 {
      ProductPositive(-margin, demand / norm, -q);
    }
  }

  lemma SquarePositive(q: real)
    requires q > 0.0
    ensures Square(q) > 0.0
  {
    ProductPositive(q, q, Square(q));
  }

  lemma SquareIncreasing(x: real, y: real)
    requires 0.0 <= x < y
    ensures Square(x) < Square(y)
  {
    ProductPositive(y - x, y + x, Square(y) - Square(x));
  }

  lemma SquareAtMostOne(q: real)
    requires 0.0 <= q <= 1.0
    ensures Square(q) <= 1.0
  {
    if q < 1.0 {
      SquareIncreasing(q, 1.0);
    }
  }

  lemma DivStrict(x: real, y: real, d: real)
    requires d > 0.0 && x < y
    ensures x / d < y / d
  {
    ProductPositive(y - x, 1.0 / d, y / d - x / d);
  }

  /** `(max(0, new - competitor) / max(1, competitor)) ** 2`. */
  function CompetitivePenalty(newPrice: real, competitorPrice: real): (r: real)
    ensures newPrice <= competitorPrice ==> r == 0.0
    ensures newPrice > competitorPrice ==> r > 0.0
  {
    var q := MaxReal(0.0, newPrice - competitorPrice) / MaxReal(1.0, competitorPrice);
    if newPrice > competitorPrice then
      DivStrict(0.0, MaxReal(0.0, newPrice - competitorPrice), MaxReal(1.0, competitorPrice));
      SquarePositive(q);
      Square(q)
    else
      Square(q)
  }

  /** Pricing further above the competitor is penalised strictly more. */
  lemma CompetitivePenaltyIncreasing(a: real, b: real, competitorPrice: real)
    requires competitorPrice <= a < b
    ensures CompetitivePenalty(a, competitorPrice) < CompetitivePenalty(b, competitorPrice)
  {
    var d := MaxReal(1.0, competitorPrice);
    var xa := MaxReal(0.0, a - competitorPrice);
    var xb := MaxReal(0.0, b - competitorPrice);
    DivStrict(xa, xb, d);
    Numeric.DivMonotone(0.0, xa, d);
    SquareIncreasing(xa / d, xb / d);
  }

  /** `(abs(new - old) / max(1, old)) ** 2`. */
  function StabilityPenalty(oldPrice: real, newPrice: real): (r: real)
    ensures newPrice == oldPrice ==> r == 0.0
    ensures newPrice != oldPrice ==> r > 0.0
  {
    var q := Abs(newPrice - oldPrice) / MaxReal(1.0, oldPrice);
    if newPrice != oldPrice then
      DivStrict(0.0, Abs(newPrice - oldPrice), MaxReal(1.0, oldPrice));
      SquarePositive(q);
      Square(q)
    else
      Square(q)
  }

  /** A larger move away from the old price is penalised strictly more, in either direction. */
  lemma StabilityPenaltyIncreasing(oldPrice: real, a: real, b: real)
    requires Abs(a - oldPrice) < Abs(b - oldPrice)
    ensures StabilityPenalty(oldPrice, a) < StabilityPenalty(oldPrice, b)
  {
    var d := MaxReal(1.0, oldPrice);
    var xa := Abs(a - oldPrice);
    var xb := Abs(b - oldPrice);
    DivStrict(xa, xb, d);
    Numeric.DivMonotone(0.0, xa, d);
    SquareIncreasing(xa / d, xb / d);
  }

  /** `((20 - inv) / 20) ** 2` below 20 units, `((inv - 400) / 400) ** 2` above 400, else 0. */
  function InventoryPenalty(inv: int): (r: real)
    ensures r >= 0.0
    ensures r == 0.0 <==> LowStock <= inv <= OverStock
    ensures 0 <= inv < LowStock ==> r <= 1.0
  {
    if inv < LowStock then
      var q := (LowStock - inv) as real / LowStock as real;
      SquarePositive(q);
      if 0 <= inv then SquareAtMostOne(q); Square(q) else Square(q)
    else if inv > OverStock then
      var q := (inv - OverStock) as real / OverStock as real;
      SquarePositive(q);
      Square(q)
    else 0.0
  }

  /**
   * The profit part of `compute_reward`: margin over the estimated cost times the demand at
   * the new price, divided by `max(1, current_price * 100)`. Selling at or below cost earns
   * nothing.
   */
  function RelativeProfit(e: Engine, newPrice: real, m: MarketState): (r: real)
    ensures newPrice <= EstimateCost(m.currentPrice) ==> r <= 0.0
  {
    var cost := EstimateCost(m.currentPrice);
    var demand := Demand(e, newPrice, m.currentPrice, m.demandElasticity, m.seasonalFactor, m.userEngagement);
    var norm := MaxReal(1.0, m.currentPrice * 100.0);
    var q := (newPrice - cost) * demand / norm;
    LossIsNotProfit(newPrice - cost, demand, norm, q);
    q
  }

  /** The reward and its four parts, as `compute_reward` returns them. */
  datatype Reward = Reward(total: real, profit: real, competitive: real, stability: real, inventory: real)

  /**
   * `compute_reward`: the weighted profit minus the weighted competitive, stability and
   * inventory penalties, all judged against the market's current price as the reference.
   */
  function ComputeReward(e: Engine, oldPrice: real, newPrice: real, m: MarketState): (r: Reward)
    ensures r.competitive == CompetitivePenalty(newPrice, m.competitorPrice)
    ensures r.stability == StabilityPenalty(oldPrice, newPrice)
    ensures r.inventory == InventoryPenalty(m.inventoryLevel)
    ensures r.competitive >= 0.0 && r.stability >= 0.0 && r.inventory >= 0.0
    ensures r.competitive == 0.0 <==> newPrice <= m.competitorPrice
    ensures r.stability == 0.0 <==> newPrice == oldPrice
    ensures r.inventory == 0.0 <==> LowStock <= m.inventoryLevel <= OverStock
    ensures newPrice <= EstimateCost(m.currentPrice) ==> r.profit <= 0.0
    ensures r == Weigh(e.settings, r.profit, r.competitive, r.stability, r.inventory)
  {
    Weigh(e.settings, RelativeProfit(e, newPrice, m), CompetitivePenalty(newPrice, m.competitorPrice),
          StabilityPenalty(oldPrice, newPrice), InventoryPenalty(m.inventoryLevel))
  }

  /** The weighted sum `alpha * profit - beta * competitive - gamma * stability - delta * inventory`, with its parts. */
  function Weigh(s: AppSettings, profit: real, competitive: real, stability: real, inventory: real): (r: Reward)
    ensures r.profit == profit && r.competitive == competitive
    ensures r.stability == stability && r.inventory == inventory
    ensures r.total == s.alpha * r.profit - s.beta * r.competitive - s.gamma * r.stability - s.delta * r.inventory
  {
    Reward(s.alpha * profit - s.beta * competitive - s.gamma * stability - s.delta * inventory,
           profit, competitive, stability, inventory)
  }

  /**
   * The reward's competitive and stability parts grow strictly as the new price moves
   * further above the competitor's, and further from the old price.
   */
  lemma RewardPenaltiesIncreasing(e: Engine, oldPrice: real, a: real, b: real, m: MarketState)
    ensures m.competitorPrice <= a < b ==>
      ComputeReward(e, oldPrice, a, m).competitive < ComputeReward(e, oldPrice, b, m).competitive
    ensures Abs(a - oldPrice) < Abs(b - oldPrice) ==>
      ComputeReward(e, oldPrice, a, m).stability < ComputeReward(e, oldPrice, b, m).stability
  {
    if m.competitorPrice <= a < b {
      CompetitivePenaltyIncreasing(a, b, m.competitorPrice);
    }
    if Abs(a - oldPrice) < Abs(b - oldPrice) {
      StabilityPenaltyIncreasing(oldPrice, a, b);
    }
  }

  /**
   * With non-negative weights the reward never exceeds the weighted profit; with positive
   * penalty weights it reaches it exactly when the price does not exceed the competitor's,
   * does not move, and the stock lies in the healthy band.
   */
  lemma {:induction false} RewardAtMostProfit(e: Engine, oldPrice: real, newPrice: real, m: MarketState)
    requires e.settings.beta >= 0.0 && e.settings.gamma >= 0.0 && e.settings.delta >= 0.0
    ensures var r := ComputeReward(e, oldPrice, newPrice, m);
      && r.total <= e.settings.alpha * r.profit
      && (e.settings.beta > 0.0 && e.settings.gamma > 0.0 && e.settings.delta > 0.0 ==>
            (r.total == e.settings.alpha * r.profit <==>
               newPrice <= m.competitorPrice && newPrice == oldPrice
               && LowStock <= m.inventoryLevel <= OverStock))
  {
    RewardBound(e.settings, ComputeReward(e, oldPrice, newPrice, m), newPrice <= m.competitorPrice,
                newPrice == oldPrice, LowStock <= m.inventoryLevel <= OverStock);
  }

  /**
   * For any reward that is the weighted sum of its own non-negative penalties, each zero
   * exactly when its condition holds: the total is at most the weighted profit, and with
   * positive penalty weights equal to it exactly when all three conditions hold.
   */
  lemma RewardBound(s: AppSettings, r: Reward, priceOk: bool, steady: bool, stockOk: bool)
    requires s.beta >= 0.0 && s.gamma >= 0.0 && s.delta >= 0.0
    requires r.competitive >= 0.0 && r.stability >= 0.0 && r.inventory >= 0.0
    requires r.competitive == 0.0 <==> priceOk
    requires r.stability == 0.0 <==> steady
    requires r.inventory == 0.0 <==> stockOk
    requires r.total == s.alpha * r.profit - s.beta * r.competitive - s.gamma * r.stability - s.delta * r.inventory
    ensures r.total <= s.alpha * r.profit
    ensures s.beta > 0.0 && s.gamma > 0.0 && s.delta > 0.0 ==>
      (r.total == s.alpha * r.profit <==> priceOk && steady && stockOk)
  {
    WeightedPenalty(s.beta, r.competitive);
    WeightedPenalty(s.gamma, r.stability);
    WeightedPenalty(s.delta, r.inventory);
  }

  /** A penalty weighted by a non-negative weight is non-negative, and zero exactly when the penalty is, if the weight is positive. */
  lemma WeightedPenalty(w: real, x: real)
    requires w >= 0.0 && x >= 0.0
    ensures w * x >= 0.0
    ensures w > 0.0 ==> (w * x == 0.0 <==> x == 0.0)
  {
    if w > 0.0 && x > 0.0 {
      ProductPositive(w, x, w * x);
    }
  }

  // ---------------------------------------------------------------------------
  // Candidate search
  // ---------------------------------------------------------------------------

  /** The reward of moving from the market's current price to `price`. */
  function Score(e: Engine, m: MarketState, price: real): real
  {
    ComputeReward(e, m.currentPrice, price, m).total
  }

  /**
   * The ten raw candidates of `suggest_price`: the current price, three steps down and
   * three up by quarters of the adjustment range, the competitor's price and 2% either side.
   */
  function Candidates(e: Engine, m: MarketState): (c: seq<real>)
    ensures |c| == 10
    ensures c[0] == m.currentPrice && c[7] == m.competitorPrice
  {
    var base := m.currentPrice;
    var r := e.settings.priceAdjustmentRange;
    [ base,
      base * (1.0 - r * 0.25), base * (1.0 - r * 0.50), base * (1.0 - r * 0.75),
      base * (1.0 + r * 0.25), base * (1.0 + r * 0.50), base * (1.0 + r * 0.75),
      m.competitorPrice, m.competitorPrice * 0.98, m.competitorPrice * 1.02 ]
  }

  /** `round(max(0.01, cp), 2)`: a candidate floored at one cent and rounded to cents. */
  function Prepare(cp: real): (r: real)
    ensures r >= 0.01
    ensures Numeric.Round(r, 2) == r
    ensures 0.01 <= cp ==> Numeric.Round(cp, 2) == r
    ensures cp < 0.01 ==> r == 0.01
  {
    var x := MaxReal(0.01, cp);
    Numeric.Pow10Two();
    Numeric.RoundMonotone(0.01, x, 2);
    Numeric.RoundOnGrid(1, 2);
    Numeric.RoundIdempotent(x, 2);
    Numeric.Round(x, 2)
  }

  /** The candidates as they are scored. */
  function Prepared(e: Engine, m: MarketState): (ps: seq<real>)
    ensures |ps| == 10
    ensures forall i :: 0 <= i < 10 ==> ps[i] == Prepare(Candidates(e, m)[i])
  {
    var c := Candidates(e, m);
    seq(10, i requires 0 <= i < 10 => Prepare(c[i]))
  }

  /**
   * The scan `if reward > best_reward` continued from index `i`, with `best` the index of
   * the first best score among the candidates before `i`.
   */
  function ArgMaxFrom(scores: seq<real>, i: nat, best: nat): (k: nat)
    requires best < i <= |scores|
    requires forall j :: 0 <= j < i ==> scores[j] <= scores[best]
    requires forall j :: 0 <= j < best ==> scores[j] < scores[best]
    ensures best <= k < |scores|
    ensures forall j :: 0 <= j < |scores| ==> scores[j] <= scores[k]
    ensures forall j :: 0 <= j < k ==> scores[j] < scores[k]
    decreases |scores| - i
  {
    if i == |scores| then best
    else if scores[i] > scores[best] then ArgMaxFrom(scores, i + 1, i)
    else ArgMaxFrom(scores, i + 1, best)
  }

  /**
   * The index the scan settles on. The first candidate always beats the initial `-inf`;
   * after it, only a strictly greater reward replaces the best, so ties keep the earlier one.
   */
  function BestIndex(scores: seq<real>): (k: nat)
    requires |scores| > 0
    ensures k < |scores|
    ensures forall j :: 0 <= j < |scores| ==> scores[j] <= scores[k]
    ensures forall j :: 0 <= j < k ==> scores[j] < scores[k]
  {
    ArgMaxFrom(scores, 1, 0)
  }

  function Scores(e: Engine, m: MarketState, ps: seq<real>): (s: seq<real>)
    ensures |s| == |ps|
    ensures forall i :: 0 <= i < |ps| ==> s[i] == Score(e, m, ps[i])
  {
    seq(|ps|, i requires 0 <= i < |ps| => Score(e, m, ps[i]))
  }

  /**
   * `suggest_price`: the first prepared candidate with the highest reward. It is at least
   * one cent, already rounded to cents, and one of the candidates; that no candidate
   * scores better is `SuggestPriceIsFirstBest`.
   */
  function SuggestPrice(e: Engine, m: MarketState): (r: real)
    ensures r >= 0.01
    ensures Numeric.Round(r, 2) == r
    ensures r in Prepared(e, m)
  {
    var ps := Prepared(e, m);
    var k := BestIndex(Scores(e, m, ps));
    Numeric.Round(ps[k], 2)
  }

  /**
   * No candidate scores better than the suggestion, and the suggestion is the earliest
   * candidate among those with the highest reward.
   */
  lemma {:induction false} SuggestPriceIsFirstBest(e: Engine, m: MarketState)
    ensures forall j :: 0 <= j < 10 ==> Score(e, m, Prepared(e, m)[j]) <= Score(e, m, SuggestPrice(e, m))
    ensures exists k ::
              && 0 <= k < 10
              && SuggestPrice(e, m) == Prepared(e, m)[k]
              && (forall j :: 0 <= j < k ==> Score(e, m, Prepared(e, m)[j]) < Score(e, m, Prepared(e, m)[k]))
  {
    var ps := Prepared(e, m);
    var k := BestIndex(Scores(e, m, ps));
    assert SuggestPrice(e, m) == ps[k];
  }

  // ---------------------------------------------------------------------------
  // Simulation
  // ---------------------------------------------------------------------------

  /** Product names are cut to this many characters in actions and results. */
  const NameWidth: nat := 60

  /**
   * The four values the engine's generator returns during one step, in call order:
   * `randint(-30, 30)`, `uniform(-0.05, 0.05)`, `uniform(-0.1, 0.1)`, `uniform(-0.03, 0.03)`.
   */
  datatype StepDraws = StepDraws(inventoryChange: int, engagementDrift: real, seasonalDrift: real, competitorDrift: real)

  predicate StepDrawsInRange(d: StepDraws) {
    && -30 <= d.inventoryChange <= 30
    && -0.05 <= d.engagementDrift <= 0.05
    && -0.1 <= d.seasonalDrift <= 0.1
    && -0.03 <= d.competitorDrift <= 0.03
  }

  /**
   * Starting from stock on hand, a step whose draws lie in the generator's ranges moves
   * the stock by at most 30 units either way.
   */
  lemma {:induction false} StepStockMovesAtMostThirty(e: Engine, p: Product, m: MarketState, oldPrice: real, d: StepDraws)
    requires StepDrawsInRange(d) && m.inventoryLevel >= 0
    ensures var inv := SimulateStep(e, p, m, oldPrice, d).market.inventoryLevel;
      m.inventoryLevel - 30 <= inv <= m.inventoryLevel + 30
  {
  }

  /** The action and the next market state of one step. */
  datatype StepOutcome = StepOutcome(action: PricingAction, market: MarketState)

  const EngagementFloor := 0.05
  const EngagementCeiling := 1.0
  const SeasonalFloor := 0.3
  const SeasonalCeiling := 2.5
  const PriceFloor := 0.01

  /**
   * `simulate_step`: price at the suggestion, record the action with rounded figures, and
   * drift the market: stock moves by the drawn change but not below zero, engagement and
   * seasonality drift within their clamps, the competitor's price drifts but stays at least
   * one cent, and the suggestion becomes the current price.
   */
  function SimulateStep(e: Engine, p: Product, m: MarketState, oldPrice: real, d: StepDraws): (o: StepOutcome)
    ensures o.action.newPrice == SuggestPrice(e, m) && o.action.newPrice >= PriceFloor
    ensures o.action.oldPrice == Numeric.Round(oldPrice, 2)
    ensures o.action.productId == p.sampleId && o.action.productName == Text.Take(p.name, NameWidth)
    ensures o.action.step == 0
    ensures var rw := ComputeReward(e, oldPrice, SuggestPrice(e, m), m);
      && o.action.reward == Numeric.Round(rw.total, 4)
      && o.action.profitComponent == Numeric.Round(rw.profit, 4)
      && o.action.competitiveComponent == Numeric.Round(rw.competitive, 4)
      && o.action.stabilityComponent == Numeric.Round(rw.stability, 4)
      && o.action.inventoryComponent == Numeric.Round(rw.inventory, 4)
    ensures o.market == NextMarket(p, m, o.action.newPrice, d)
    ensures o.market.currentPrice == o.action.newPrice
    ensures o.market.productId == p.sampleId
    ensures o.market.demandElasticity == m.demandElasticity
    ensures o.market.inventoryLevel >= 0
    ensures EngagementFloor <= o.market.userEngagement <= EngagementCeiling
    ensures SeasonalFloor <= o.market.seasonalFactor <= SeasonalCeiling
    ensures o.market.competitorPrice >= PriceFloor
  {
    var newPrice := SuggestPrice(e, m);
    var r := ComputeReward(e, oldPrice, newPrice, m);
    var action := PricingAction(
      productId := p.sampleId,
      productName := Text.Take(p.name, NameWidth),
      oldPrice := Numeric.Round(oldPrice, 2),
      newPrice := Numeric.Round(newPrice, 2),
      reward := Numeric.Round(r.total, 4),
      profitComponent := Numeric.Round(r.profit, 4),
      competitiveComponent := Numeric.Round(r.competitive, 4),
      stabilityComponent := Numeric.Round(r.stability, 4),
      inventoryComponent := Numeric.Round(r.inventory, 4),
      step := 0);
    StepOutcome(action, NextMarket(p, m, newPrice, d))
  }

  /**
   * The market after one step of `simulate_step`, priced at `newPrice`: stock moves by the
   * drawn change but not below zero; engagement, seasonality and the competitor's price
   * take the drifted value rounded to cents when it lies inside its clamp, and the bound
   * it crossed otherwise.
   */
  function NextMarket(p: Product, m: MarketState, newPrice: real, d: StepDraws): (next: MarketState)
    ensures next.productId == p.sampleId && next.currentPrice == newPrice
    ensures next.demandElasticity == m.demandElasticity
    ensures next.inventoryLevel >= 0
    ensures m.inventoryLevel + d.inventoryChange >= 0 ==> next.inventoryLevel == m.inventoryLevel + d.inventoryChange
    ensures m.inventoryLevel + d.inventoryChange < 0 ==> next.inventoryLevel == 0
    ensures EngagementFloor <= next.userEngagement <= EngagementCeiling
    ensures var x := m.userEngagement + d.engagementDrift;
      && (EngagementFloor <= x <= EngagementCeiling ==> next.userEngagement == Numeric.Round(x, 2))
      && (x < EngagementFloor ==> next.userEngagement == EngagementFloor)
      && (x > EngagementCeiling ==> next.userEngagement == EngagementCeiling)
    ensures SeasonalFloor <= next.seasonalFactor <= SeasonalCeiling
    ensures var x := m.seasonalFactor + d.seasonalDrift;
      && (SeasonalFloor <= x <= SeasonalCeiling ==> next.seasonalFactor == Numeric.Round(x, 2))
      && (x < SeasonalFloor ==> next.seasonalFactor == SeasonalFloor)
      && (x > SeasonalCeiling ==> next.seasonalFactor == SeasonalCeiling)
    ensures next.competitorPrice >= PriceFloor
    ensures var x := m.competitorPrice * (1.0 + d.competitorDrift);
      && (x >= PriceFloor ==> next.competitorPrice == Numeric.Round(x, 2))
      && (x < PriceFloor ==> next.competitorPrice == PriceFloor)
  {
    var engagement := Clamp(m.userEngagement + d.engagementDrift, EngagementFloor, EngagementCeiling);
    var seasonal := Clamp(m.seasonalFactor + d.seasonalDrift, SeasonalFloor, SeasonalCeiling);
    var comp := MaxReal(PriceFloor, m.competitorPrice * (1.0 + d.competitorDrift));
    StepRoundingFacts(engagement, seasonal, comp);
    ClampBoundsOnGrid();
    MarketState(
      productId := p.sampleId,
      currentPrice := newPrice,
      competitorPrice := Numeric.Round(comp, 2),
      inventoryLevel := MaxInt(0, m.inventoryLevel + d.inventoryChange),
      userEngagement := Numeric.Round(engagement, 2),
      seasonalFactor := Numeric.Round(seasonal, 2),
      demandElasticity := m.demandElasticity)
  }

  /** The clamp bounds are whole cents, so rounding to cents keeps the clamped values inside them. */
  lemma StepRoundingFacts(engagement: real, seasonal: real, comp: real)
    requires EngagementFloor <= engagement <= EngagementCeiling
    requires SeasonalFloor <= seasonal <= SeasonalCeiling
    requires comp >= PriceFloor
    ensures EngagementFloor <= Numeric.Round(engagement, 2) <= EngagementCeiling
    ensures SeasonalFloor <= Numeric.Round(seasonal, 2) <= SeasonalCeiling
    ensures Numeric.Round(comp, 2) >= PriceFloor
  {
    Numeric.Pow10Two();
    Numeric.RoundBetween(5, 100, engagement, 2);
    Numeric.RoundBetween(30, 250, seasonal, 2);
    Numeric.RoundMonotone(PriceFloor, comp, 2);
    Numeric.RoundOnGrid(1, 2);
  }

  /** The clamp bounds are whole cents, so rounding to cents leaves them unchanged. */
  lemma ClampBoundsOnGrid()
    ensures Numeric.Round(EngagementFloor, 2) == EngagementFloor
    ensures Numeric.Round(EngagementCeiling, 2) == EngagementCeiling
    ensures Numeric.Round(SeasonalFloor, 2) == SeasonalFloor
    ensures Numeric.Round(SeasonalCeiling, 2) == SeasonalCeiling
    ensures Numeric.Round(PriceFloor, 2) == PriceFloor
  {
    Numeric.Pow10Two();
    Numeric.RoundOnGrid(5, 2);
    Numeric.RoundOnGrid(100, 2);
    Numeric.RoundOnGrid(30, 2);
    Numeric.RoundOnGrid(250, 2);
    Numeric.RoundOnGrid(1, 2);
  }

  /**
   * Each action starts at the price before it: `start` for the first, and the previous
   * action's new price for every later one.
   */
  predicate Chained(start: real, a: seq<PricingAction>)
    decreases |a|
  {
    |a| == 0 ||
      (Chained(start, a[..|a| - 1]) && a[|a| - 1].oldPrice == if |a| == 1 then start else a[|a| - 2].newPrice)
  }

  /** In a chained run the first action starts at `start` and every later one at the price before it. */
  lemma {:induction false} ChainedAt(start: real, a: seq<PricingAction>, i: nat)
    requires Chained(start, a) && i < |a|
    ensures i == 0 ==> a[i].oldPrice == start
    ensures i > 0 ==> a[i].oldPrice == a[i - 1].newPrice
  {
    if i < |a| - 1 {
      var f := a[..|a| - 1];
      ChainedAt(start, f, i);
      assert f[i] == a[i];
      if i > 0 {
        assert f[i - 1] == a[i - 1];
      }
    }
  }

  /** Conversely, a run whose old prices follow that pattern is chained. */
  lemma {:induction false} ChainedFrom(start: real, a: seq<PricingAction>)
    requires |a| > 0 ==> a[0].oldPrice == start
    requires forall i :: 1 <= i < |a| ==> a[i].oldPrice == a[i - 1].newPrice
    ensures Chained(start, a)
  {
    if |a| > 0 {
      var f := a[..|a| - 1];
      forall i | 1 <= i < |f|
        ensures f[i].oldPrice == f[i - 1].newPrice
      {
        assert f[i] == a[i] && f[i - 1] == a[i - 1];
      }
      ChainedFrom(start, f);
    }
  }

  /** One step of the simulation: from a market, the price before the step and the step's draws. */
  type Stepper = (MarketState, real, StepDraws) -> StepOutcome

  /**
   * What `simulate_step` guarantees from any market and price: the new price is whole
   * cents of at least one cent, the old price is the given one rounded to cents, and the
   * next market carries the new price, keeps its elasticity, and stays within the clamps.
   */
  ghost predicate StepContract(advance: Stepper)
  {
    forall m: MarketState, price: real, d: StepDraws ::
      && advance(m, price, d).action.newPrice >= PriceFloor
      && Numeric.Round(advance(m, price, d).action.newPrice, 2) == advance(m, price, d).action.newPrice
      && advance(m, price, d).action.oldPrice == Numeric.Round(price, 2)
      && advance(m, price, d).market.currentPrice == advance(m, price, d).action.newPrice
      && advance(m, price, d).market.demandElasticity == m.demandElasticity
      && advance(m, price, d).market.inventoryLevel >= 0
      && EngagementFloor <= advance(m, price, d).market.userEngagement <= EngagementCeiling
      && SeasonalFloor <= advance(m, price, d).market.seasonalFactor <= SeasonalCeiling
      && advance(m, price, d).market.competitorPrice >= PriceFloor
  }

  /** `simulate_step` of engine `e` on product `p`, as a step of the loop. */
  function EngineStep(e: Engine, p: Product): (advance: Stepper)
    ensures StepContract(advance)
    ensures forall m, price, d :: advance(m, price, d) == SimulateStep(e, p, m, price, d)
  {
    (m: MarketState, price: real, d: StepDraws) => SimulateStep(e, p, m, price, d)
  }

  /** The actions so far, the market they left, and the current price. */
  datatype Trace = Trace(actions: seq<PricingAction>, market: MarketState, price: real)

  /**
   * The first `n` iterations of the `run_simulation` loop from market `m` and price `price`.
   * Step `i` (0-based) uses `draws[i]`, is numbered `i + 1`, starts from the price the
   * previous step set, and the market always carries the latest price.
   */
  function Rollout(advance: Stepper, m: MarketState, price: real, draws: seq<StepDraws>, n: nat): (t: Trace)
    requires StepContract(advance)
    requires n <= |draws|
    ensures |t.actions| == n
    ensures forall i :: 0 <= i < n ==> t.actions[i].step == i + 1
    ensures forall i :: 0 <= i < n ==> t.actions[i].newPrice >= PriceFloor
    ensures forall i :: 0 <= i < n ==> Numeric.Round(t.actions[i].newPrice, 2) == t.actions[i].newPrice
    ensures n == 0 ==> t.price == price && t.market == m
    ensures n > 0 ==> t.price == t.actions[n - 1].newPrice && t.market.currentPrice == t.price
    ensures t.market.demandElasticity == m.demandElasticity
    ensures n > 0 ==>
      && t.market.inventoryLevel >= 0
      && EngagementFloor <= t.market.userEngagement <= EngagementCeiling
      && SeasonalFloor <= t.market.seasonalFactor <= SeasonalCeiling
      && t.market.competitorPrice >= PriceFloor
    decreases n
  {
    if n == 0 then Trace([], m, price)
    else
      var t := Rollout(advance, m, price, draws, n - 1);
      var o := advance(t.market, t.price, draws[n - 1]);
      var a := o.action.(step := n);
      Trace(t.actions + [a], o.market, a.newPrice)
  }

  /** Taking a prefix of a prefix. */
  lemma TakeOfTake<T>(a: seq<T>, k: nat, j: nat)
    requires k <= j <= |a|
    ensures a[..j][..k] == a[..k]
  {
  }

  /** A prefix keeps the elements it covers. */
  lemma TakeIndex<T>(a: seq<T>, i: nat, j: nat)
    requires i < j <= |a|
    ensures a[..j][i] == a[i]
  {
  }

  /** Sequences that agree on their first `n` elements agree on the first `n - 1` and on element `n - 1`. */
  lemma TakeAgree<T>(a: seq<T>, b: seq<T>, n: nat)
    requires 0 < n <= |a| && n <= |b| && a[..n] == b[..n]
    ensures a[..n - 1] == b[..n - 1] && a[n - 1] == b[n - 1]
  {
    assert a[..n - 1] == a[..n][..n - 1];
    assert b[..n - 1] == b[..n][..n - 1];
    assert a[n - 1] == a[..n][n - 1];
    assert b[n - 1] == b[..n][n - 1];
  }

  /** Non-empty sequences of one length with the same front and the same last element are equal. */
  lemma SameFrontAndLast<T>(a: seq<T>, b: seq<T>)
    requires |a| == |b| > 0
    requires a[..|a| - 1] == b[..|b| - 1] && a[|a| - 1] == b[|b| - 1]
    ensures a == b
  {
    assert a == a[..|a| - 1] + [a[|a| - 1]];
    assert b == b[..|b| - 1] + [b[|b| - 1]];
  }

  /**
   * One more step keeps the earlier actions and appends the step taken from the market
   * and price the shorter run left.
   */
  lemma {:induction false} RolloutExtends(advance: Stepper, m: MarketState, price: real, draws: seq<StepDraws>, n: nat)
    requires StepContract(advance)
    requires 0 < n <= |draws|
    ensures Rollout(advance, m, price, draws, n - 1).actions == Rollout(advance, m, price, draws, n).actions[..n - 1]
    ensures var t := Rollout(advance, m, price, draws, n - 1);
      var o := advance(t.market, t.price, draws[n - 1]);
      && Rollout(advance, m, price, draws, n).actions[n - 1] == o.action.(step := n)
      && Rollout(advance, m, price, draws, n).market == o.market
  {
    var t := Rollout(advance, m, price, draws, n - 1);
    var o := advance(t.market, t.price, draws[n - 1]);
    assert (t.actions + [o.action.(step := n)])[..n - 1] == t.actions;
  }

  /** A shorter run is the beginning of a longer one on the same draws. */
  lemma {:induction false} RolloutPrefix(advance: Stepper, m: MarketState, price: real, draws: seq<StepDraws>, k: nat, n: nat)
    requires StepContract(advance)
    requires k <= n <= |draws|
    ensures Rollout(advance, m, price, draws, k).actions == Rollout(advance, m, price, draws, n).actions[..k]
    decreases n
  {
    if k < n {
      RolloutPrefix(advance, m, price, draws, k, n - 1);
      RolloutExtends(advance, m, price, draws, n);
      TakeOfTake(Rollout(advance, m, price, draws, n).actions, k, n - 1);
    } else {
      TakeOfTake(Rollout(advance, m, price, draws, n).actions, n, n);
    }
  }

  /** Every run is chained from the starting price rounded to cents. */
  lemma {:induction false} RolloutChained(advance: Stepper, m: MarketState, price: real, draws: seq<StepDraws>, n: nat)
    requires StepContract(advance)
    requires n <= |draws|
    ensures Chained(Numeric.Round(price, 2), Rollout(advance, m, price, draws, n).actions)
    decreases n
  {
    if n > 0 {
      RolloutChained(advance, m, price, draws, n - 1);
      RolloutExtends(advance, m, price, draws, n);
    }
  }

  /**
   * Step `i` of any longer run is the step taken from the market and price the first `i`
   * steps left, with draw `i`, numbered `i + 1`.
   */
  lemma {:induction false} RolloutStep(advance: Stepper, m: MarketState, price: real, draws: seq<StepDraws>, i: nat, n: nat)
    requires StepContract(advance)
    requires i < n <= |draws|
    ensures var t := Rollout(advance, m, price, draws, i);
      var o := advance(t.market, t.price, draws[i]);
      && Rollout(advance, m, price, draws, n).actions[i] == o.action.(step := i + 1)
      && Rollout(advance, m, price, draws, i + 1).market == o.market
  {
    RolloutExtends(advance, m, price, draws, i + 1);
    RolloutPrefix(advance, m, price, draws, i + 1, n);
    TakeIndex(Rollout(advance, m, price, draws, n).actions, i, i + 1);
  }

  /**
   * A run depends only on the draws it consumes: two draw streams that agree on the first
   * `n` steps give the same `n`-step run. With the generator's stream fixed by its seed,
   * the same seed gives the same trace.
   */
  lemma {:induction false} RolloutDeterministic(advance: Stepper, m: MarketState, price: real,
                                                 d1: seq<StepDraws>, d2: seq<StepDraws>, n: nat)
    requires StepContract(advance)
    requires n <= |d1| && n <= |d2| && d1[..n] == d2[..n]
    ensures Rollout(advance, m, price, d1, n) == Rollout(advance, m, price, d2, n)
    decreases n
  {
    if n > 0 {
      TakeAgree(d1, d2, n);
      RolloutDeterministic(advance, m, price, d1, d2, n - 1);
      RolloutExtends(advance, m, price, d1, n);
      RolloutExtends(advance, m, price, d2, n);
      SameFrontAndLast(Rollout(advance, m, price, d1, n).actions, Rollout(advance, m, price, d2, n).actions);
    }
  }

  /** `steps or default_steps`: a missing or zero step count falls back to the default. */
  function EffectiveSteps(steps: Option<int>, defaultSteps: int): (n: int)
    ensures steps.Some? && steps.value != 0 ==> n == steps.value
    ensures steps.None? || steps.value == 0 ==> n == defaultSteps
  {
    if steps.Some? && steps.value != 0 then steps.value else defaultSteps
  }

  /** `range(n)` runs `n` times, and not at all for a negative `n`. */
  function Iterations(n: int): (k: nat)
    ensures n >= 0 ==> k == n
    ensures n < 0 ==> k == 0
  {
    if n >= 0 then n else 0
  }

  /** `[current_price]` followed by every step's new price. */
  function PriceHistory(initial: real, actions: seq<PricingAction>): (h: seq<real>)
    ensures |h| == |actions| + 1 && h[0] == initial
    ensures forall i :: 0 < i < |h| ==> h[i] == actions[i - 1].newPrice
  {
    seq(|actions| + 1, i requires 0 <= i <= |actions| => if i == 0 then initial else actions[i - 1].newPrice)
  }

  /** The rewards of the actions, in step order. */
  function Rewards(actions: seq<PricingAction>): (r: seq<real>)
    ensures |r| == |actions|
    ensures forall i :: 0 <= i < |actions| ==> r[i] == actions[i].reward
  {
    seq(|actions|, i requires 0 <= i < |actions| => actions[i].reward)
  }

  /**
   * `r` is the result block of the run `actions` started at `initial`: it carries the
   * actions, the first and last price to cents, the rewards' total and mean to four
   * places, and the lowest and highest of the starting price and every step's new price,
   * to cents.
   */
  predicate Summarises(r: SimulationResult, initial: real, actions: seq<PricingAction>)
  {
    && r.actions == actions
    && r.initialPrice == Numeric.Round(initial, 2)
    && r.finalPrice == Numeric.Round(if |actions| == 0 then initial else actions[|actions| - 1].newPrice, 2)
    && r.totalReward == Numeric.Round(Numeric.Sum(Rewards(actions)), 4)
    && r.avgReward == Numeric.Round(
         if |actions| > 0 then Numeric.Sum(Rewards(actions)) / |actions| as real else 0.0, 4)
    && r.minPrice == Numeric.Round(Numeric.MinOf(PriceHistory(initial, actions)), 2)
    && r.maxPrice == Numeric.Round(Numeric.MaxOf(PriceHistory(initial, actions)), 2)
  }

  /**
   * The result block `run_simulation` builds from a finished run, whose last price is
   * `final`. The lowest price is at most, and the highest at least, both the first and
   * the last price; an empty run has zero total and mean reward.
   */
  function Summarise(p: Product, initial: real, n: int, actions: seq<PricingAction>, final: real): (r: SimulationResult)
    requires |actions| == 0 ==> final == initial
    requires |actions| > 0 ==> final == actions[|actions| - 1].newPrice
    ensures r.steps == n
    ensures r.productId == p.sampleId && r.productName == Text.Take(p.name, NameWidth)
    ensures Summarises(r, initial, actions)
    ensures r.minPrice <= r.initialPrice <= r.maxPrice
    ensures r.minPrice <= r.finalPrice <= r.maxPrice
    ensures |actions| == 0 ==> r.totalReward == 0.0 && r.avgReward == 0.0
  {
    var history := PriceHistory(initial, actions);
    var total := Numeric.Sum(Rewards(actions));
    var avg := if |actions| > 0 then total / |actions| as real else 0.0;
    var lo := Numeric.MinOf(history);
    var hi := Numeric.MaxOf(history);
    assert history[|history| - 1] == final;
    Numeric.RoundMonotone(lo, initial, 2);
    Numeric.RoundMonotone(initial, hi, 2);
    Numeric.RoundMonotone(lo, final, 2);
    Numeric.RoundMonotone(final, hi, 2);
    ZeroRoundsToZero();
    SimulationResult(
      productId := p.sampleId,
      productName := Text.Take(p.name, NameWidth),
      actions := actions,
      totalReward := Numeric.Round(total, 4),
      avgReward := Numeric.Round(avg, 4),
      finalPrice := Numeric.Round(final, 2),
      initialPrice := Numeric.Round(initial, 2),
      maxPrice := Numeric.Round(hi, 2),
      minPrice := Numeric.Round(lo, 2),
      steps := n)
  }

  /**
   * `run_simulation` with `advance` as the step: roll the market forward `Iterations(n)`
   * times and summarise the run.
   */
  function Simulate(advance: Stepper, p: Product, m: MarketState, n: int, draws: seq<StepDraws>): (r: SimulationResult)
    requires StepContract(advance)
    requires Iterations(n) <= |draws|
    ensures r.steps == n
    ensures r.actions == Rollout(advance, m, m.currentPrice, draws, Iterations(n)).actions
    ensures r.productId == p.sampleId && r.productName == Text.Take(p.name, NameWidth)
    ensures Summarises(r, m.currentPrice, Rollout(advance, m, m.currentPrice, draws, Iterations(n)).actions)
    ensures r.minPrice <= r.initialPrice <= r.maxPrice
    ensures r.minPrice <= r.finalPrice <= r.maxPrice
  {
    var t := Rollout(advance, m, m.currentPrice, draws, Iterations(n));
    Summarise(p, m.currentPrice, n, t.actions, t.price)
  }

  /**
   * The run behind a simulation result: one action per iteration, numbered from one and
   * chained from the reported initial price; an empty run reports zero rewards and its
   * initial price as final, and otherwise the final price is the last step's new price.
   */
  lemma SimulateRun(advance: Stepper, p: Product, m: MarketState, n: int, draws: seq<StepDraws>)
    requires StepContract(advance)
    requires Iterations(n) <= |draws|
    ensures var r := Simulate(advance, p, m, n, draws);
      && |r.actions| == Iterations(n)
      && (forall i :: 0 <= i < |r.actions| ==> r.actions[i].step == i + 1)
      && (|r.actions| == 0 ==> r.totalReward == 0.0 && r.avgReward == 0.0 && r.finalPrice == r.initialPrice)
      && (|r.actions| > 0 ==> r.finalPrice == r.actions[|r.actions| - 1].newPrice)
      && Chained(r.initialPrice, r.actions)
  {
    var t := Rollout(advance, m, m.currentPrice, draws, Iterations(n));
    RolloutChained(advance, m, m.currentPrice, draws, Iterations(n));
    SummaryOfChainedRun(Simulate(advance, p, m, n, draws), m.currentPrice, t.actions);
  }

  /**
   * `run_simulation`: roll the market forward for the effective number of steps with the
   * engine's `simulate_step` and summarise the run. `draws` holds the engine generator's
   * values for each step.
   */
  function RunSimulation(e: Engine, p: Product, m: MarketState, steps: Option<int>, draws: seq<StepDraws>): (r: SimulationResult)
    requires Iterations(EffectiveSteps(steps, e.settings.defaultSteps)) <= |draws|
    ensures r.steps == EffectiveSteps(steps, e.settings.defaultSteps)
    ensures r.actions == Rollout(EngineStep(e, p), m, m.currentPrice, draws, Iterations(r.steps)).actions
    ensures r.productId == p.sampleId && r.productName == Text.Take(p.name, NameWidth)
    ensures Summarises(r, m.currentPrice, r.actions)
    ensures r.minPrice <= r.initialPrice <= r.maxPrice
    ensures r.minPrice <= r.finalPrice <= r.maxPrice
  {
    Simulate(EngineStep(e, p), p, m, EffectiveSteps(steps, e.settings.defaultSteps), draws)
  }

  /** The facts of `SimulateRun` for `run_simulation` with the engine's own step. */
  lemma RunSimulationRun(e: Engine, p: Product, m: MarketState, steps: Option<int>, draws: seq<StepDraws>)
    requires Iterations(EffectiveSteps(steps, e.settings.defaultSteps)) <= |draws|
    ensures var r := RunSimulation(e, p, m, steps, draws);
      && |r.actions| == Iterations(r.steps)
      && (forall i :: 0 <= i < |r.actions| ==> r.actions[i].step == i + 1)
      && (|r.actions| == 0 ==> r.totalReward == 0.0 && r.avgReward == 0.0 && r.finalPrice == r.initialPrice)
      && (|r.actions| > 0 ==> r.finalPrice == r.actions[|r.actions| - 1].newPrice)
      && Chained(r.initialPrice, r.actions)
  {
    SimulateRun(EngineStep(e, p), p, m, EffectiveSteps(steps, e.settings.defaultSteps), draws);
  }

  /**
   * Every action of `run_simulation` records the reward `compute_reward` gives the suggestion
   * from the market and price the earlier steps left, rounded to four places; the result's
   * total and mean are taken over these rewards.
   */
  lemma RunSimulationRewards(e: Engine, p: Product, m: MarketState, steps: Option<int>, draws: seq<StepDraws>, i: nat)
    requires Iterations(EffectiveSteps(steps, e.settings.defaultSteps)) <= |draws|
    requires i < Iterations(EffectiveSteps(steps, e.settings.defaultSteps))
    ensures var t := Rollout(EngineStep(e, p), m, m.currentPrice, draws, i);
      RunSimulation(e, p, m, steps, draws).actions[i].reward
        == Numeric.Round(ComputeReward(e, t.price, SuggestPrice(e, t.market), t.market).total, 4)
  {
    var n := Iterations(EffectiveSteps(steps, e.settings.defaultSteps));
    RolloutStep(EngineStep(e, p), m, m.currentPrice, draws, i, n);
  }

  /**
   * The summary of a chained run on the cent grid reports the last new price itself as
   * the final price, and the run is chained from the reported initial price.
   */
  lemma {:induction false} SummaryOfChainedRun(r: SimulationResult, initial: real, a: seq<PricingAction>)
    requires forall i :: 0 <= i < |a| ==> Numeric.Round(a[i].newPrice, 2) == a[i].newPrice
    requires Chained(Numeric.Round(initial, 2), a)
    requires Summarises(r, initial, a)
    ensures |r.actions| == 0 ==> r.finalPrice == r.initialPrice
    ensures |r.actions| > 0 ==> r.finalPrice == r.actions[|r.actions| - 1].newPrice
    ensures Chained(r.initialPrice, r.actions)
  {
  }

  lemma ZeroRoundsToZero()
    ensures Numeric.Round(0.0, 4) == 0.0
  {
    Numeric.RoundOnGrid(0, 4);
  }
}

=== FILE: storage.dfy ===
/**
 * The simulation history: the record one finished simulation adds, and the append that
 * keeps only the most recent entries. Reading and writing the history file are left out;
 * the history is the list of records the file held.
 */
module Storage {
  import opened Models
  import Numeric

  /** The history keeps at most this many simulations. */
  const HistoryCap: nat := 200

  /** One step as the history stores it. */
  datatype ActionRecord = ActionRecord(step: int, oldPrice: real, newPrice: real, reward: real)

  /** One simulation as the history stores it. */
  datatype HistoryRecord = HistoryRecord(
    productId: int,
    productName: string,
    totalReward: real,
    avgReward: real,
    initialPrice: real,
    finalPrice: real,
    steps: int,
    priceChangePct: real,
    actions: seq<ActionRecord>)

  function MakeActionRecord(a: PricingAction): (r: ActionRecord)
    ensures r.step == a.step
  {
    ActionRecord(a.step, Numeric.Round(a.oldPrice, 2), Numeric.Round(a.newPrice, 2), Numeric.Round(a.reward, 4))
  }

  /**
   * The record `save_simulation` builds: identity and step count copied, summary figures
   * rounded, and one entry per action in step order.
   */
  function MakeRecord(s: SimulationResult): (r: HistoryRecord)
    ensures r.productId == s.productId && r.productName == s.productName && r.steps == s.steps
    ensures |r.actions| == |s.actions|
    ensures forall i :: 0 <= i < |s.actions| ==> r.actions[i] == MakeActionRecord(s.actions[i])
  {
    HistoryRecord(
      productId := s.productId,
      productName := s.productName,
      totalReward := Numeric.Round(s.totalReward, 4),
      avgReward := Numeric.Round(s.avgReward, 4),
      initialPrice := Numeric.Round(s.initialPrice, 2),
      finalPrice := Numeric.Round(s.finalPrice, 2),
      steps := s.steps,
      priceChangePct := Numeric.Round(ResultPriceChangePct(s), 2),
      actions := seq(|s.actions|, i requires 0 <= i < |s.actions| => MakeActionRecord(s.actions[i])))
  }

  /** Prices and rewards of a simulation result are already rounded, so the record keeps them exactly. */
  lemma RecordKeepsRoundedFigures(s: SimulationResult)
    requires Numeric.Round(s.initialPrice, 2) == s.initialPrice
    requires Numeric.Round(s.finalPrice, 2) == s.finalPrice
    requires Numeric.Round(s.totalReward, 4) == s.totalReward
    requires forall i :: 0 <= i < |s.actions| ==>
      Numeric.Round(s.actions[i].oldPrice, 2) == s.actions[i].oldPrice
      && Numeric.Round(s.actions[i].newPrice, 2) == s.actions[i].newPrice
    ensures var r := MakeRecord(s);
      && r.initialPrice == s.initialPrice && r.finalPrice == s.finalPrice && r.totalReward == s.totalReward
      && forall i :: 0 <= i < |s.actions| ==>
           r.actions[i].oldPrice == s.actions[i].oldPrice && r.actions[i].newPrice == s.actions[i].newPrice
  {
  }

  /**
   * `history.append(x)` followed by keeping the last `HistoryCap` entries when the list
   * grew beyond that.
   */
  function AppendCapped<T>(history: seq<T>, x: T): (r: seq<T>)
    ensures |r| <= HistoryCap
    ensures |r| > 0 && r[|r| - 1] == x
    ensures |history| < HistoryCap ==> r == history + [x]
    ensures |history| >= HistoryCap ==> |r| == HistoryCap
  {
    var h := history + [x];
    if |h| > HistoryCap then h[|h| - HistoryCap..] else h
  }

  /**
   * Only the oldest entries are ever dropped: the result is the newest part of the old
   * history followed by the new entry, and it keeps as much of the old history as fits.
   */
  lemma AppendCappedKeepsNewest<T>(history: seq<T>, x: T)
    ensures var r := AppendCapped(history, x);
      var kept := if |history| < HistoryCap then |history| else HistoryCap - 1;
      r == history[|history| - kept..] + [x]
  {
    var r := AppendCapped(history, x);
    if |history| >= HistoryCap {
      var h := history + [x];
      assert r == h[|h| - HistoryCap..];
      assert h[|h| - HistoryCap..] == history[|history| - (HistoryCap - 1)..] + [x];
    } else {
      assert history[0..] == history;
    }
  }

  /** `save_simulation` on the history the file held. */
  function SaveSimulation(history: seq<HistoryRecord>, s: SimulationResult): (r: seq<HistoryRecord>)
    ensures 0 < |r| <= HistoryCap && r[|r| - 1] == MakeRecord(s)
    ensures |history| < HistoryCap ==> r == history + [MakeRecord(s)]
  {
    AppendCapped(history, MakeRecord(s))
  }

  /** Saving into a history already at the cap leaves the cap's worth of entries. */
  lemma SaveSimulationAtCap(history: seq<HistoryRecord>, s: SimulationResult)
    requires |history| >= HistoryCap
    ensures |SaveSimulation(history, s)| == HistoryCap
    ensures SaveSimulation(history, s)[..HistoryCap - 1] == history[|history| - (HistoryCap - 1)..]
  {
    AppendCappedKeepsNewest(history, MakeRecord(s));
  }
}

=== FILE: text.dfy ===
/**
 * The handful of Python `str` operations the catalog code relies on:
 * `lower`, `strip`, slicing with a stop index, `find`, `in`, `replace`,
 * `split(sep)[0]` and decimal formatting of a non-negative int.
 */
module Text {

  /** `t` occurs in `s` starting at index `a`. */
  predicate InfixAt(t: string, s: string, a: int) {
    0 <= a && a + |t| <= |s| && s[a..a + |t|] == t
  }

  /** `t` occurs somewhere in `s` (Python's `t in s`). */
  ghost predicate IsInfix(t: string, s: string) {
    exists a :: InfixAt(t, s, a)
  }

  /** Lower-cases one ASCII letter and leaves every other character alone. */
  function LowerChar(c: char): (r: char)
    ensures !('A' <= r <= 'Z')
    ensures c != r ==> 'A' <= c <= 'Z'
  {
    if 'A' <= c <= 'Z' then (c as int + 32) as char else c
  }

  /** `s.lower()`, restricted to ASCII, so the result has the same length and indices as `s`. */
  function Lower(s: string): (r: string)
    ensures |r| == |s|
    ensures forall i :: 0 <= i < |s| ==> r[i] == LowerChar(s[i])
  {
    seq(|s|, i requires 0 <= i < |s| => LowerChar(s[i]))
  }

  /** Python's `str.isspace` for a single character. */
  predicate IsSpace(c: char) {
    IsSpaceCode(c as int)
  }

  /** The code points Python's `str.isspace` accepts, by range. */
  predicate IsSpaceCode(n: int) {
    || 0x09 <= n <= 0x0D
    || 0x1C <= n <= 0x20
    || n == 0x85 || n == 0xA0 || n == 0x1680
    || 0x2000 <= n <= 0x200A
    || n == 0x2028 || n == 0x2029 || n == 0x202F || n == 0x205F || n == 0x3000
  }

  /** `s.lstrip()`: drops the leading whitespace and nothing else. */
  function StripStart(s: string): (r: string)
    ensures |r| <= |s| && r == s[|s| - |r|..]
    ensures r == [] || !IsSpace(r[0])
    ensures forall i :: 0 <= i < |s| - |r| ==> IsSpace(s[i])
  {
    if |s| > 0 && IsSpace(s[0]) then
      var r := StripStart(s[1..]);
      assert forall i :: 1 <= i < |s| - |r| ==> s[i] == s[1..][i - 1];
      r
    else s
  }

  /** `s.rstrip()`: drops the trailing whitespace and nothing else. */
  function StripEnd(s: string): (r: string)
    ensures |r| <= |s| && r == s[..|r|]
    ensures r == [] || !IsSpace(r[|r| - 1])
    ensures forall i :: |r| <= i < |s| ==> IsSpace(s[i])
  {
    if |s| > 0 && IsSpace(s[|s| - 1]) then
      var r := StripEnd(s[..|s| - 1]);
      assert forall i :: |r| <= i < |s| - 1 ==> s[i] == s[..|s| - 1][i];
      r
    else s
  }

  /**
   * `s.strip()`: the infix of `s` left after removing whitespace at both ends.
   * It is empty exactly when `s` is all whitespace.
   */
  function Strip(s: string): (r: string)
    ensures |r| <= |s|
    ensures r == [] || (!IsSpace(r[0]) && !IsSpace(r[|r| - 1]))
    ensures InfixAt(r, s, |s| - |StripStart(s)|)
    ensures r == [] <==> forall i :: 0 <= i < |s| ==> IsSpace(s[i])
  {
    StripFacts(s);
    StripEnd(StripStart(s))
  }

  lemma StripFacts(s: string)
    ensures InfixAt(StripEnd(StripStart(s)), s, |s| - |StripStart(s)|)
    ensures StripEnd(StripStart(s)) == [] <==> forall i :: 0 <= i < |s| ==> IsSpace(s[i])
  {
    StripIsInfix(s);
    StripEmptyWhenAllSpace(s);
    StripNonEmptyWhenSomeNonSpace(s);
  }

  lemma StripIsInfix(s: string)
    ensures InfixAt(StripEnd(StripStart(s)), s, |s| - |StripStart(s)|)
  {
    var t := StripStart(s);
    var r := StripEnd(t);
    var a := |s| - |t|;
    assert t == s[a..];
    assert r == t[..|r|];
    assert s[a..a + |r|] == r;
  }

  lemma StripEmptyWhenAllSpace(s: string)
    ensures StripEnd(StripStart(s)) == [] ==> forall i :: 0 <= i < |s| ==> IsSpace(s[i])
  {
    var t := StripStart(s);
    var r := StripEnd(t);
    var a := |s| - |t|;
    if r == [] {
      assert t == [];
    }
  }

  lemma StripNonEmptyWhenSomeNonSpace(s: string)
    ensures StripEnd(StripStart(s)) != [] ==> exists i :: 0 <= i < |s| && !IsSpace(s[i])
  {
    var t := StripStart(s);
    var r := StripEnd(t);
    var a := |s| - |t|;
    if r != [] {
      assert s[a] == r[0];
    }
  }

  /** The first index in `[from, end)` whose character is not whitespace, or `end` when there is none. */
  function SkipSpace(s: string, from: nat, end: nat): (f: nat)
    requires from <= end <= |s|
    ensures from <= f <= end
    ensures forall i :: from <= i < f ==> IsSpace(s[i])
    ensures f < end ==> !IsSpace(s[f])
    decreases end - from
  {
    if from < end && IsSpace(s[from]) then SkipSpace(s, from + 1, end) else from
  }

  /** One past the last index in `[from, end)` whose character is not whitespace, or `from` when there is none. */
  function TrimEnd(s: string, from: nat, end: nat): (b: nat)
    requires from <= end <= |s|
    ensures from <= b <= end
    ensures forall i :: b <= i < end ==> IsSpace(s[i])
    ensures b > from ==> !IsSpace(s[b - 1])
    decreases end - from
  {
    if from < end && IsSpace(s[end - 1]) then TrimEnd(s, from, end - 1) else end
  }

  /** Any index with `SkipSpace`'s two properties is `SkipSpace`'s result. */
  lemma SkipSpaceUnique(s: string, from: nat, end: nat, g: nat)
    requires from <= g <= end <= |s|
    requires forall i :: from <= i < g ==> IsSpace(s[i])
    requires g < end ==> !IsSpace(s[g])
    ensures g == SkipSpace(s, from, end)
  {
  }

  /** Any index with `TrimEnd`'s two properties is `TrimEnd`'s result. */
  lemma TrimEndUnique(s: string, from: nat, end: nat, g: nat)
    requires from <= g <= end <= |s|
    requires forall i :: g <= i < end ==> IsSpace(s[i])
    requires g > from ==> !IsSpace(s[g - 1])
    ensures g == TrimEnd(s, from, end)
  {
  }

  /**
   * `s[start:end].strip()` is the part of the span from its first non-whitespace character
   * to just past its last one.
   */
  lemma StripSpan(s: string, start: nat, end: nat)
    requires start <= end <= |s|
    ensures var f := SkipSpace(s, start, end);
      Strip(s[start..end]) == s[f..TrimEnd(s, f, end)]
  {
    var t := s[start..end];
    var u := StripStart(t);
    var f := end - |u|;
    assert Strip(t) == StripEnd(u);
    assert SkipSpace(s, start, end) == f by {
      SkipOfSlice(s, start, end, u);
    }
    assert StripEnd(u) == s[f..TrimEnd(s, f, end)] by {
      SkipOfSlice(s, start, end, u);
      StripEndOfSuffix(s, f, end, u);
    }
  }

  lemma SkipOfSlice(s: string, start: nat, end: nat, u: string)
    requires start <= end <= |s| && u == StripStart(s[start..end])
    ensures |u| <= end - start && SkipSpace(s, start, end) == end - |u|
    ensures u == s[end - |u|..end]
  {
    var t := s[start..end];
    SkipPastSpaceOfSlice(s, start, end, |t| - |u|);
    SliceDrop(s, start, end, |t| - |u|);
  }

  /** When a slice starts with `off` whitespace characters and then a non-whitespace one, `SkipSpace` lands `off` past its start. */
  lemma SkipPastSpaceOfSlice(s: string, start: nat, end: nat, off: nat)
    requires start <= end <= |s| && off <= end - start
    requires forall i :: 0 <= i < off ==> IsSpace(s[start..end][i])
    requires off < end - start ==> !IsSpace(s[start..end][off])
    ensures SkipSpace(s, start, end) == start + off
  {
    LeadingSpaceOfSlice(s, start, end, off);
    if off < end - start {
      SliceAt(s, start, end, off);
    }
    SkipSpaceUnique(s, start, end, start + off);
  }

  /** Whitespace at the front of a slice is whitespace at the same place in the whole string. */
  lemma LeadingSpaceOfSlice(s: string, start: nat, end: nat, off: nat)
    requires start <= end <= |s| && off <= end - start
    requires forall i :: 0 <= i < off ==> IsSpace(s[start..end][i])
    ensures forall i :: start <= i < start + off ==> IsSpace(s[i])
  {
    forall i | start <= i < start + off ensures IsSpace(s[i]) {
      SliceAt(s, start, end, i - start);
    }
  }

  /** Indexing a slice. */
  lemma SliceAt<T>(s: seq<T>, start: nat, end: nat, k: nat)
    requires start <= end <= |s| && k < end - start
    ensures s[start..end][k] == s[start + k]
  {
  }

  /** Dropping the front of a slice. */
  lemma SliceDrop<T>(s: seq<T>, start: nat, end: nat, k: nat)
    requires start <= end <= |s| && k <= end - start
    ensures s[start..end][k..] == s[start + k..end]
  {
  }

  lemma StripEndOfSuffix(s: string, f: nat, end: nat, u: string)
    requires f <= end <= |s| && u == s[f..end]
    ensures StripEnd(u) == s[f..TrimEnd(s, f, end)]
  {
    var r := StripEnd(u);
    forall i | f + |r| <= i < end ensures IsSpace(s[i]) {
      assert s[i] == u[i - f];
    }
    if |r| > 0 {
      assert s[f + |r| - 1] == u[|r| - 1] == r[|r| - 1];
    }
    TrimEndUnique(s, f, end, f + |r|);
  }

  /** `s[:n]`: the first `n` characters, or all of `s` when it is shorter. */
  function Take(s: string, n: nat): (r: string)
    ensures |r| == if |s| <= n then |s| else n
    ensures r == s[..|r|]
    ensures |s| <= n ==> r == s
  {
    if |s| <= n then s else s[..n]
  }

  /** Cutting a slice to `n` characters slices less of the same string. */
  lemma TakeSlice(s: string, f: nat, b: nat, n: nat)
    requires f <= b <= |s|
    ensures Take(s[f..b], n) == s[f..if b - f <= n then b else f + n]
  {
    if b - f > n {
      assert s[f..b][..n] == s[f..f + n];
    }
  }

  /**
   * `s.find(p, from)`: the lowest index at or after `from` where `p` occurs,
   * or -1 when there is none.
   */
  function Find(s: string, p: string, from: nat): (r: int)
    ensures r == -1 || (from <= r && InfixAt(p, s, r))
    ensures r == -1 ==> forall i :: from <= i ==> !InfixAt(p, s, i)
    ensures r >= 0 ==> forall i :: from <= i < r ==> !InfixAt(p, s, i)
    decreases |s| - from
  {
    if from + |p| > |s| then -1
    else if s[from..from + |p|] == p then from
    else Find(s, p, from + 1)
  }

  /** `p in s`. */
  function Contains(s: string, p: string): (r: bool)
    ensures r <==> IsInfix(p, s)
  {
    var k := Find(s, p, 0);
    if k >= 0 then assert InfixAt(p, s, k); true else false
  }

  /** `s.replace(a, b)` for single characters. */
  function ReplaceChar(s: string, a: char, b: char): (r: string)
    ensures |r| == |s|
    ensures forall i :: 0 <= i < |s| ==> r[i] == (if s[i] == a then b else s[i])
  {
    seq(|s|, i requires 0 <= i < |s| => if s[i] == a then b else s[i])
  }

  /** `s.split(sep)[0]`: the text before the first occurrence of `sep`, or all of `s`. */
  function Before(s: string, sep: string): (r: string)
    requires |sep| > 0
    ensures |r| <= |s| && r == s[..|r|]
    ensures !IsInfix(sep, r)
    ensures IsInfix(sep, s) ==> InfixAt(sep, s, |r|)
    ensures !IsInfix(sep, s) ==> r == s
  {
    var k := Find(s, sep, 0);
    if k >= 0 then
      assert InfixAt(sep, s, k);
      PrefixKeepsAbsence(s, sep, k);
      s[..k]
    else
      s
  }

  /** A prefix of `s` that ends before the first occurrence of `p` in `s` does not contain `p`. */
  lemma PrefixKeepsAbsence(s: string, p: string, k: nat)
    requires |p| > 0 && k <= |s|
    requires forall i :: 0 <= i < k ==> !InfixAt(p, s, i)
    ensures !IsInfix(p, s[..k])
  {
    forall a | InfixAt(p, s[..k], a) ensures false {
      assert s[..k][a..a + |p|] == s[a..a + |p|];
      assert InfixAt(p, s, a);
    }
  }

  /** The decimal digit character for `d`. */
  function DigitChar(d: nat): (c: char)
    requires d < 10
    ensures '0' <= c <= '9'
  {
    ('0' as int + d) as char
  }

  /** `str(n)` for a non-negative integer: its decimal digits, most significant first. */
  function NatToString(n: nat): (r: string)
    ensures |r| >= 1
    ensures forall i :: 0 <= i < |r| ==> '0' <= r[i] <= '9'
  {
    if n < 10 then [DigitChar(n)] else NatToString(n / 10) + [DigitChar(n % 10)]
  }
}

=== FILE: wrappers.dfy ===
/** Failure-compatible result types shared by the rest of the model. */
module Wrappers {

  /** A value that may be absent: Python's `None` or a missing dictionary entry. */
  datatype Option<+T> = None | Some(value: T) {

    /** The wrapped value, or `default` when there is none (Python's `x or default`). */
    function GetOr(default: T): (r: T)
      ensures Some? ==> r == value
      ensures None? ==> r == default
    {
      match this
      case Some(v) => v
      case None => default
    }
  }

  /** The outcome of an operation that can abort: a value, or the reason it stopped. */
  datatype Result<+R, +E> = Success(value: R) | Failure(error: E)
}
